=== FILE: README.md ===
# Phlexus core, modelled in Dafny

Phlexus is a CMS bootstrap built on the Phalcon framework. Four pieces of its own logic are
modelled here. Each one becomes deterministic once the framework and the cryptographic
primitives are taken as parameters.

- **Token derivation** (`Security`, security.dfy). A `Security` object holds three secret
  hashes: the application hash, the user hash and the database hash. Every token is a digest
  of `appHash ++ userHash ++ append`. Some tokens add the current date (`Y-m-d`) or the
  current hour (`Y-m-d H`) after `append`. Static tokens are MD5 digests. User tokens use the
  framework's salted `hash` and are verified with `checkHash`.
- **The model layer** (`Models`, models.dfy).
  - `encrypt`/`decrypt` overwrite, in place, each listed attribute of a record with the
    OpenSSL result under the model token. The `beforeSave` and `afterFetch` hooks call them.
  - `find` decrypts every fetched row into a new result set (`Simple::import`,
    `Simple::setRow`).
  - `injectActiveParameter` adds an `active = :injectedActive:` condition and its bind to a
    query.
- **Module discovery** (`ModulesProvider`, modules_provider.dfy). Namespaces under
  `Phlexus\Modules\` become module definitions, which are then merged with the configured
  modules by `array_merge`.
- **The application bootstrap** (`Bootstrap`, application.dfy). The mode chooses an MVC
  application or a console. The constructor then registers, in a fixed order, the generic
  providers, the database provider when `db` is configured, the web providers in the default
  mode, and finally the configured extra providers. Each provider is registered under its name.

Supporting modules:
- `Wrappers`: `Option` and `Result`.
- `Text`: `strpos` and the PCRE class `\w`.
- `PhpArrays`: ordered PHP arrays, numeric-string key normalisation, `$a[k] = v` and
  `array_merge`.
- `Clock`: the two `date()` formats.

Foreign primitives are passed in as function-typed fields of datatypes:
- `Security.Digests`: `md5`, `hash` and `checkHash`.
- `Models.Cipher`: `openssl_encrypt` and `openssl_decrypt`.
- `Bootstrap.ClassTable`: `class_exists`, `instanceof ProviderInterface` and each provider's
  `getName()`.

What the model assumes of these primitives is stated as ghost predicates, which the lemmas
take as preconditions:
- `ChecksOwnHash`: the verifier accepts the hash of its own input.
- `SeparatesBcrypted`: the verifier accepts a hash only for an input that agrees with the
  hashed one on the first 72 bytes, the part bcrypt (the framework's default) reads. That
  part is `Security.Bcrypted`.
- `IgnoresPastBcrypted`: the converse, which bcrypt guarantees: what follows the first 72
  bytes is ignored.
- `Inverts`: decryption undoes encryption.

The clock is a `Clock.Moment` parameter, the random salt of `hash` a string parameter, and the
directory separator a string parameter.

PHP semantics the model follows:
- **Typed properties without a default.** The three hashes of `Security` are `Option` fields,
  and reading one before it is set is an error.
- **`declare(strict_types=1)`.** Passing the `false` left by a failed decryption, or any other
  non-string scalar (`Models.Value.OtherScalar` stands for integers, floats and `true`), to
  `openssl_encrypt`/`openssl_decrypt` is a `TypeError`.
- **Array keys.** A numeric module name becomes an integer key, and `array_merge` renumbers it.

## Model

| member | source | states |
|---|---|---|
| Security.Security.constructor | src/Security.php:24-34 | the three hashes are typed properties without a default: none is set |
| Security.Security.SetAppHash | src/Security.php:53-56 | `getAppHash()` then returns the value set; the other two hashes are untouched |
| Security.Security.SetUserHash | src/Security.php:75-78 | `getUserHash()` then returns the value set; the other two hashes are untouched |
| Security.Security.SetDatabaseHash | src/Security.php:97-100 | `getDatabaseHash()` then returns the value set; the other two hashes are untouched |
| Security.Security.GetAppHash | src/Security.php:41-44 | reading the typed property raises exactly when it was never set; otherwise it gives the value stored by `setAppHash` |
| Security.Security.GetUserHash | src/Security.php:63-66 | reading the typed property raises exactly when it was never set; otherwise it gives the value stored by `setUserHash` |
| Security.Security.GetDatabaseHash | src/Security.php:85-88 | reading the typed property raises exactly when it was never set; otherwise it gives the value stored by `setDatabaseHash` |
| Security.Security.TokenInput | src/Security.php:109-112 | the token input is `appHash ++ userHash ++ append`, in that order; it fails on the application hash first, then on the user hash, exactly when one is unset |
| Security.Security.StaticUserToken | src/Security.php:109-112 | succeeds exactly when both hashes are set, and is then the MD5 of exactly `appHash ++ userHash ++ append` |
| Security.Security.StaticDatabaseToken | src/Security.php:119-122 | fails when the database hash is unset; otherwise it is the static user token of the database hash |
| Security.Security.UserToken | src/Security.php:131-134 | succeeds exactly when both hashes are set, and is then the salted hash of `appHash ++ userHash ++ append` |
| Security.Security.CheckUserToken | src/Security.php:144-147 | succeeds exactly when both hashes are set, and is then the verifier's verdict on the same input string |
| Security.Security.UserTokenByDate | src/Security.php:156-159 | the user token of `append` followed by the `Y-m-d` reading of the clock |
| Security.Security.CheckUserTokenByDate | src/Security.php:169-172 | the check of `append` followed by the `Y-m-d` reading at check time |
| Security.Security.UserTokenByHour | src/Security.php:181-184 | the user token of `append` followed by the `Y-m-d H` reading of the clock |
| Security.Security.CheckUserTokenByHour | src/Security.php:194-197 | the check of `append` followed by the `Y-m-d H` reading at check time |
| Security.DatabaseTokenIgnoresArgument | src/Security.php:119-122 | the static database token is the same whatever argument is passed, and it succeeds exactly when all three hashes are set |
| Security.UserTokenChecks | src/Security.php:131-147 | a token from `getUserToken(a)` passes `checkUserToken(token, a)` whenever the verifier accepts its own hashes |
| Security.DateInputsSeparateDays | src/Security.php:156-172 | with no assumption on the primitives, the token inputs of two moments are equal exactly when the moments fall on the same day (years 0 to 9999) |
| Security.HourInputsSeparateHours | src/Security.php:181-197 | with no assumption on the primitives, the token inputs of two moments are equal exactly when the moments fall in the same hour (years 0 to 9999) |
| Security.DateTokenScopedToDay | src/Security.php:156-172 | a date token is accepted on the day it was minted. It is refused on every other day when the verifier separates what bcrypt reads and `appHash ++ userHash ++ append` leaves the 10-byte date inside the first 72 bytes (years 0 to 9999) |
| Security.HourTokenScopedToHour | src/Security.php:181-197 | an hour token is accepted in the hour it was minted. It is refused in every other hour when the verifier separates what bcrypt reads and the 13-byte hour stays inside the first 72 bytes (years 0 to 9999) |
| Security.LongInputOutlivesDay | src/Security.php:156-172 | when `appHash ++ userHash ++ append` fills the 72 bytes bcrypt reads, a date token is accepted on every day |
| Clock.DateStampInjective | src/Security.php:158 | two moments give the same `Y-m-d` reading exactly when they are on the same day (years 0 to 9999) |
| Clock.HourStampInjective | src/Security.php:183 | two moments give the same `Y-m-d H` reading exactly when they are in the same hour of the same day (years 0 to 9999) |
| Models.GetEncryptFields | src/Models/Model.php:32-35 | the base class lists no encrypted field; a model class that overrides the method lists its own |
| Models.ModelToken | src/Models/Model.php:177-180 | the static database token with no argument: it succeeds exactly when all three hashes are set, and is then the MD5 of `appHash ++ userHash ++ databaseHash`; an unset database hash raises first |
| Models.WalkFrame | src/Models/Model.php:54-58 | the field loop neither adds nor removes attributes, and leaves unlisted and null attributes as they were |
| Models.WalkPointwise | src/Models/Model.php:54-58 | with distinct names and only strings or null listed, the loop completes and each listed string attribute holds the cipher's result, or `false` |
| Models.CipherFieldsFrame | src/Models/Model.php:44-88 | `encrypt`/`decrypt` keep the attribute set; an empty field list returns the record at once without reading the token; an unavailable token raises before anything changes |
| Models.CipherFieldsPointwise | src/Models/Model.php:44-88 | each listed string attribute is replaced by the cipher applied under the model token; the pass raises nothing |
| Models.EncryptDecryptRoundTrip | src/Models/Model.php:44-88 | decrypting what was encrypted under the same token restores the record, provided every encryption succeeds |
| Models.FailedDecryptStoresFalse | src/Models/Model.php:81-85 | a failed decryption stores `false` in the attribute instead of raising |
| Models.NonStringListedRaises | src/Models/Model.php:54-58 | under strict types a listed attribute holding `false` or another non-string scalar makes the pass raise |
| Models.FailedDecryptBlocksEncrypt | src/Models/Model.php:44-88 | a record whose decryption failed on a listed attribute cannot be encrypted again: `beforeSave` raises |
| Models.Model.ApplyCipher | src/Models/Model.php:44-88 | the in-place loop leaves the record and the error that the field-by-field specification gives |
| Models.Model.Encrypt | src/Models/Model.php:44-62 | the record after `encrypt` is the encrypting pass over the declared fields under the model token |
| Models.Model.Decrypt | src/Models/Model.php:71-88 | the record after `decrypt` is the decrypting pass over the declared fields under the model token |
| Models.Model.AfterFetch | src/Models/Model.php:143-146 | the hook decrypts the record itself |
| Models.Model.BeforeSave | src/Models/Model.php:153-156 | the hook encrypts the record itself |
| Models.Simple.Import | src/Models/Simple.php:21-26 | every property of the source set is copied; properties it lacks keep their values; nothing else is added |
| Models.Simple.SetRow | src/Models/Simple.php:28-32 | the row's array form is appended to `rows`; the earlier rows and every other property are unchanged |
| Models.Simple.Rewind | src/Models/Model.php:121 | the result set's `pointer` goes back to the first row; nothing else changes |
| Models.DecryptedRows | src/Models/Model.php:111-119 | when no row raises, one decrypted row per fetched row |
| Models.DecryptedRowsAt | src/Models/Model.php:111-119 | row `i` of the collected set is row `i` of the cursor, decrypted |
| Models.CollectAppends | src/Models/Model.php:111-119 | the collected rows follow the buffered ones in cursor order, and no other property changes |
| Models.CollectDecrypted | src/Models/Model.php:111-119 | the cursor walk appends the decrypted rows in order, or stops with the first exception |
| Models.Find | src/Models/Model.php:97-124 | the exception of the parameter rewrite escapes before any query. Otherwise the query runs with the rewritten parameters. Without encrypted fields, the framework's result is returned as it is. Otherwise the framework set's properties are imported into a new set, the decrypted rows are appended and the set is rewound; or the first exception escapes |
| Models.FindFirst | src/Models/Model.php:133-136 | the framework's `findFirst` runs with the rewritten parameters, or the exception of the rewrite escapes |
| Models.Rewrite | src/Models/Model.php:197-214 | no `active` property, or both conditions already mention `active`: unchanged. Otherwise the clause is appended to `[0]` when it does not mention `active`, else to `conditions`. When the clause is inserted, `bind['injectedActive']` is set to the given value and the other binds are kept. Other keys are never touched |
| Models.InjectedAsWritten | src/Models/Model.php:189-218 | as written: raises exactly when a clause is inserted, a global `ENABLED` exists and the class has no `ENABLED` constant; otherwise binds the class constant when the global one exists, else 1 |
| Models.InjectActiveParameter | src/Models/Model.php:189-218 | the imperative rewrite, with its flag, gives the as-written result, exception included; null becomes `[]` |
| Models.Injected | src/Models/Model.php:189-218 | the corrected rewrite: the same clause placement, never raising, binding the class's own `ENABLED` when it declares one, else 1 |
| Models.AsWrittenAgreesWithCorrected | src/Models/Model.php:211 | the as-written and corrected rewrites agree exactly when nothing is inserted, when the global constant exists just when the class declares one, or when a class declares `ENABLED = 1` with no global constant |
| Models.ClauseMentionsActive | src/Models/Model.php:199-204 | the inserted clause itself contains `active` |
| Models.RewriteIdempotentWithoutFirst | src/Models/Model.php:202-207 | without `[0]`, rewriting twice is rewriting once |
| Models.RewriteTwiceThroughFirst | src/Models/Model.php:198-207 | with `[0]` and no `conditions`, a second rewrite inserts the clause again, into `conditions` |
| Models.SubstringSuppressesFirst | src/Models/Model.php:198-204 | the test is a substring search: `inactive = 0` in `[0]` counts as mentioning `active`, so the clause goes to `conditions` |
| Models.ActiveBindValueAsWritten | src/Models/Model.php:211 | as written, the bind value raises exactly when a global `ENABLED` exists and the class has no `ENABLED` constant |
| Models.ActiveBindValueAsWrittenDiffers | src/Models/Model.php:211 | as written, a class with `ENABLED = 0` still binds 1, and a class without the constant raises when a global one exists |
| Text.WordRun | src/Providers/ModulesProvider.php:56 | the greedy `(\w+)` capture: the longest prefix made of word characters |
| Text.StrPos | src/Models/Model.php:198 | `strpos`: the first occurrence, or `false` when there is none |
| PhpArrays.NormalizeKey | src/Providers/ModulesProvider.php:63 | a key becomes an integer exactly when it is a canonical decimal numeral, optionally negative, within 64 bits, and that integer is the numeral's value; every other key stays the same string |
| PhpArrays.Put | src/Providers/ModulesProvider.php:63 | `$a[k] = v`: `k` then maps to `v`, other keys are unchanged, an existing key keeps its place, a new key goes last |
| PhpArrays.FromPairsGet | src/Providers/ModulesProvider.php:63-67 | after a series of assignments each key holds the value assigned last |
| PhpArrays.MergeSemantics | src/Providers/ModulesProvider.php:31 | `array_merge`: a string key of the second array replaces the first array's entry; integer-keyed values are renumbered, first array first, key `j` holding the `j`-th of them |
| ModulesProvider.MatchModuleName | src/Providers/ModulesProvider.php:54-60 | a namespace matches exactly when it starts with `Phlexus\Modules\` followed by a word character; the name is the longest run of word characters after the prefix |
| ModulesProvider.ModuleEntry | src/Providers/ModulesProvider.php:61-67 | `className`, `path` and `router` are built from the prefix, the name, the first directory and the separator |
| ModulesProvider.VendorModulesAssigns | src/Providers/ModulesProvider.php:51-73 | with string namespace keys, the result is the successive assignment of the matched entries |
| ModulesProvider.VendorModulesRejectsIntKey | src/Providers/ModulesProvider.php:54-56 | the first integer namespace key raises under strict types |
| ModulesProvider.VendorModuleLookup | src/Providers/ModulesProvider.php:63 | under each module name is the definition from the last namespace that yields that name |
| ModulesProvider.PrepareVendorModules | src/Providers/ModulesProvider.php:51-73 | the loop gives the specified vendor modules or the specified exception |
| ModulesProvider.PrepareCustomModules | src/Providers/ModulesProvider.php:79-82 | the configured modules are returned unchanged |
| ModulesProvider.Register | src/Providers/ModulesProvider.php:27-31 | a missing `vendor` or `custom` list raises, vendor errors escape, and otherwise the result is `array_merge(vendor, custom)` |
| ModulesProvider.RegisterCustomWins | src/Providers/ModulesProvider.php:29-31 | a custom module replaces the vendor module of the same name, other vendor modules stay, and integer-keyed modules are renumbered, key `j` holding the `j`-th of them, vendor ones first |
| ModulesProvider.NumericModuleRenumbered | src/Providers/ModulesProvider.php:63 | module `7` is stored under integer key 7, and `array_merge` moves it to key 0 |
| Bootstrap.KindOf | src/Application.php:295-308 | `default` and `api` give an MVC application, `cli` a console, and every other mode nothing |
| Bootstrap.IsEmpty | src/Application.php:166 | `empty()`: a missing key, null, `false`, `0`, `0.0`, `""`, `"0"` and `[]` are empty, and nothing else is, objects included |
| Bootstrap.ProvidersOf | src/Application.php:149-175 | one provider per class, in the same order |
| Bootstrap.AdmittedFilters | src/Application.php:271-286 | an extra provider is kept exactly when its class exists and implements the provider interface |
| Bootstrap.RegisterAllConcat | src/Application.php:149-177 | registering one list and then another is registering their concatenation |
| Bootstrap.RegisteredLookup | src/Application.php:256-263 | each name maps to the provider registered last under it |
| Bootstrap.GenericRegistered | src/Application.php:149-164 | the sixteen generic providers, registered in order |
| Bootstrap.GenericProvidersFirst | src/Application.php:149-164 | the generic providers come first, in a fixed order, in every mode |
| Bootstrap.DatabaseIffConfigured | src/Application.php:166-168 | the database provider is registered exactly when `db` is non-empty |
| Bootstrap.ViewProvidersOnlyInDefault | src/Application.php:171-175 | the URL, view and Volt providers are registered exactly in the default mode |
| Bootstrap.ConfiguredProviderWins | src/Application.php:177 | the last configured extra provider keeps its name, even over a built-in provider with the same name |
| Bootstrap.AssignAppAsWritten | src/Application.php:90 | the `MvcApplication` property accepts an MVC application and rejects a console |
| Bootstrap.CliModeRejectedAsWritten | src/Application.php:130 | as declared, `cli` builds a console that the property rejects |
| Bootstrap.EveryModeStarts | src/Application.php:123-180 | with the property corrected and a configuration that raises nothing else, the constructor succeeds exactly for `default`, `api` and `cli` |
| Bootstrap.Application.Blank | src/Application.php:113 | the object starts with no provider |
| Bootstrap.Application.CreateApplication | src/Application.php:295-308 | the mode is recorded before it is checked; a valid mode gives its application kind, any other mode raises |
| Bootstrap.Application.GetMode | src/Application.php:244-247 | gives back the mode `createApplication` recorded, valid or not |
| Bootstrap.Application.GetApplication | src/Application.php:234-237 | gives back the application kind the constructor stored |
| Bootstrap.Application.GetRootPath | src/Application.php:204-207 | gives back the path `setRootPath` stored |
| Bootstrap.Application.SetRootPath | src/Application.php:188-207 | `getRootPath()` then gives the path back; nothing else changes |
| Bootstrap.Application.InitializeProvider | src/Application.php:256-263 | the provider is stored under its name, replacing an earlier one; other entries are unchanged |
| Bootstrap.Application.InitializeProviders | src/Application.php:271-286 | the admitted classes are registered in list order; the others are skipped |
| Bootstrap.Application.RegisterGenericProviders | src/Application.php:149-164 | the sixteen generic providers are registered in order, and the modules provider hands over the merged module list; or its exception escapes |
| Bootstrap.Application.RegisterServices | src/Application.php:149-177 | the registry is the built-in providers followed by the admitted extras, each under its name; the modules are the merged module list; or the first exception escapes |
| Bootstrap.Application.New | src/Application.php:123-180 | an invalid mode or a failing provider raises. Otherwise the mode, root path and application kind are recorded, and the provider registry and modules are as specified |

## Left out

- Cryptographic primitives are parameters with stated assumptions:
  - MD5 (RFC 1321);
  - the framework's salted `hash`/`checkHash`;
  - `openssl_encrypt`/`openssl_decrypt` with `aes-256-cbc-hmac-sha256`.
  - bcrypt's reading of only the first 72 bytes is stated through `Security.Bcrypted`,
    `Security.SeparatesBcrypted` and `Security.IgnoresPastBcrypted`, as an assumption about
    the primitive, not as part of the repository's code.
- The system clock and its time zone are out of scope: a `Clock.Moment` is the local time it
  reports.
- Clock.DateStampInjective, Clock.HourStampInjective, Security.DateInputsSeparateDays,
  Security.HourInputsSeparateHours, Security.DateTokenScopedToDay,
  Security.HourTokenScopedToHour: proved for years 0 to 9999 only, where the `Y` format has
  exactly four digits.
- Security.DateTokenScopedToDay, Security.HourTokenScopedToHour: the refusal on another day
  or hour is proved only when `appHash ++ userHash ++ append` is at most 62 (date) or 59
  (hour) bytes long. Past that, bcrypt does not read the whole date, and a token stays valid
  on other days (Security.LongInputOutlivesDay). A character of the model stands for a byte.
- Models.ModelToken: the lazily built static `Security` of src/Models/Model.php:163-170 is
  replaced by a `Security` object passed in. The object built there never has its hashes set.
- `parent::find` and `parent::findFirst` of the ORM are parameters.
  - A fetched result is its properties plus the rows its cursor walks.
  - `toArray()` is the identity on the record.
- Models.Find: the rows of `Models.Fetched.cursor` are the records after the framework's
  hydration, which already ran the class's `afterFetch`, and so its decryption. `find`
  decrypts each of them again at src/Models/Model.php:116. The model applies that second
  pass as written, to whatever the cursor holds; hydration itself is not modelled.
- Models.Find, Models.Simple.SetRow: the state that the framework constructor
  `new Simple(null, null, null)` (src/Models/Model.php:107) gives is the parameter `initial`.
  Its `rows` property, and that of the imported set, is assumed to hold an array
  (`Models.RowsAppendable`), so that `$this->rows[] = $array` appends.
- Models.Simple.Rewind: only the `pointer` property is modelled, not the framework's internal
  row cache.
- Non-array `$parameters` (strings, integers) to `find`, `findFirst` and
  `injectActiveParameter` are not modelled. Only null or array parameters are.
- Models.Injected: the condition strings and bind values are plain strings and scalars.
  Non-string `[0]`/`conditions` values, for which `strpos` would raise, are not modelled.
- The `protected static array $encryptFields` property is never read by the code, and is not
  modelled.
- Dependency-injection plumbing is not modelled:
  - the `Di` container, `setShared`, `offsetSet`, `Di::setDefault` and `setDI`;
  - the `rootPath` closure of `setRootPath`;
  - in `ModulesProvider::register`, the `Registry` closure stored with `setShared`. The
    module list handed to `registerModules` is modelled as `Bootstrap.Application.modules`;
  - each provider's own `register()` side effects. Only the parameters' `array` type is
    checked, for `db`.
- `Application::run`/`getOutput` read `$_SERVER` and handle an HTTP request; they are not
  modelled.
- Bootstrap.Application.New: the configuration entries `events`, `view`, `security`,
  `application` and `flash` are taken to be arrays. So are `modules` and `providers`, whose
  types in `Bootstrap.Configs` cannot hold anything else. The `TypeError`s these would raise
  are not modelled:
  - a non-array `events`, `view`, `security`, `application` or `flash`, in
    `initializeProvider`;
  - a non-array `modules`, in `prepareCustomModules(array …)`
    (src/Providers/ModulesProvider.php:29-31, 79);
  - a non-array `providers`, in `initializeProviders(array …)` (src/Application.php:177, 271).
- Bootstrap.Application.InitializeProviders: every entry of the list is taken to be a string.
  The `TypeError` of `class_exists` on a non-string entry (src/Application.php:274) is not
  modelled. `new $provider` (src/Application.php:279) runs before the interface test. The
  model takes that instantiation to succeed and to have no effect beyond the object it
  builds. So the `Error` it raises for an existing abstract class or interface is not
  modelled, and neither are the side effects of a constructor of a class that is then
  skipped.
- Bootstrap.IsEmpty: a float `db` value is a `real`. NaN and the infinities, which `empty()`
  treats as non-empty, are not represented.
- Bootstrap.Application.InitializeProvider: the registry is a map keyed by provider name. A
  purely numeric provider name, which PHP would store under an integer key, is not
  distinguished from its string.
- The constructor is `Bootstrap.Application.New` over the blank object.
- Not part of this model:
  - src/Helpers.php: container and configuration lookups;
  - src/Theme/ThemeInstaller.php: file-system copying;
  - src/Models/ModelInterface.php: signatures only;
  - the bodies of the other providers under src/Providers/.

## Findings

| source | as written | input that shows it | evidently intended | confidence | as-written member | corrected member |
|---|---|---|---|---|---|---|
| src/Application.php:90 | `$app` is typed `MvcApplication`, while `createApplication('cli')` returns a `Phalcon\Cli\Console` | mode `cli`: the assignment at src/Application.php:130 raises a `TypeError` | the console mode starts, as `getApplication()`'s `MvcApplication` or `CliApplication` return type documents | high, not executed | Bootstrap.CliModeRejectedAsWritten | Bootstrap.Application.New |
| src/Models/Model.php:211 | `defined('ENABLED')` tests for a global constant before reading `static::ENABLED` | a class declaring `ENABLED = 0` with no global `ENABLED`: 1 is bound. A class without the constant while a global one exists raises | the class's own `ENABLED` is bound when it declares one, otherwise 1 | medium, not executed | Models.ActiveBindValueAsWrittenDiffers | Models.Injected |

=== FILE: application.dfy ===
/** The application bootstrap: the mode decides which framework application is built and which
    service providers are registered; providers are kept in a map keyed by their names. */
module Bootstrap {
  import opened Wrappers
  import opened PhpArrays
  import ModulesProvider

  const ModeDefault: string := "default"
  const ModeCli: string := "cli"
  const ModeApi: string := "api"

  /** The framework application a mode calls for: an MVC application or a console. */
  datatype AppKind = Mvc | Console

  /** The exceptions the constructor lets escape. */
  datatype AppError =
    | InvalidMode(mode: string)                              // InvalidArgumentException
    | ConsoleNotMvc                                          // TypeError on the typed `$app`
    | ModulesFailed(cause: ModulesProvider.ProviderError)    // raised by the modules provider
    | ParametersNotArray(key: string)                        // strict_types: a non-array `db`

  /** The switch of `createApplication`. */
  function KindOf(mode: string): (r: Option<AppKind>)
    ensures r == Some(Mvc) <==> mode == ModeDefault || mode == ModeApi
    ensures r == Some(Console) <==> mode == ModeCli
    ensures r.None? <==> mode !in {ModeDefault, ModeApi, ModeCli}
  {
    if mode == ModeDefault || mode == ModeApi then Some(Mvc)
    else if mode == ModeCli then Some(Console)
    else None
  }

  /** The provider classes the bootstrap names (all under `Phlexus\Providers`), and a class
      named by the configuration's `providers` list. */
  datatype ProviderClass =
    | Registry | Config | EventsManager | ModelsManager | ModelsMetadata | Modules | Request
    | Router | Dispatcher | Response | Escaper | Tag | Cookies | Session | SecurityService | Flash
    | Database | Url | View | VoltTemplateEngine
    | Configured(className: string)

  /** A registered provider: its class and the name `getName()` gives. */
  datatype Provider = Provider(cls: ProviderClass, name: string)

  /** What the bootstrap asks of the class loader: whether a configured class exists, whether
      it implements the provider interface, and the name each provider reports. */
  datatype ClassTable = ClassTable(
    classExists: string -> bool,
    implementsProvider: string -> bool,
    nameOf: ProviderClass -> string)

  function ProviderOf(c: ProviderClass, t: ClassTable): Provider {
    Provider(c, t.nameOf(c))
  }

  function ProvidersOf(cs: seq<ProviderClass>, t: ClassTable): (ps: seq<Provider>)
    ensures |ps| == |cs|
    ensures forall i :: 0 <= i < |cs| ==> ps[i] == ProviderOf(cs[i], t)
  {
    if cs == [] then [] else ProvidersOf(cs[..|cs| - 1], t) + [ProviderOf(cs[|cs| - 1], t)]
  }

  /** The generic providers, in registration order, whatever the mode. */
  const GenericProviders: seq<ProviderClass> := [
    Registry, Config, EventsManager, ModelsManager, ModelsMetadata, Modules, Request, Router,
    Dispatcher, Response, Escaper, Tag, Cookies, Session, SecurityService, Flash]

  /** The providers of the web mode. */
  const ViewProviders: seq<ProviderClass> := [Url, View, VoltTemplateEngine]

  /** A configuration value, as far as `empty()` and the `array` parameter type tell apart. */
  datatype Setting = Unset | NullValue | BoolValue(b: bool) | IntValue(i: int) | FloatValue(x: real)
                   | StrValue(s: string) | ArrayValue(size: nat) | ObjectValue

  /** `empty($configs['db'])`: a missing key, null, `false`, `0`, `0.0`, `""`, `"0"` and `[]` are
      empty, and nothing else is. */
  predicate IsEmpty(s: Setting)
    ensures IsEmpty(s) <==>
      s in {Unset, NullValue, BoolValue(false), IntValue(0), FloatValue(0.0), StrValue(""),
            StrValue("0"), ArrayValue(0)}
  {
    match s
    case Unset => true
    case NullValue => true
    case BoolValue(b) => !b
    case IntValue(i) => i == 0
    case FloatValue(x) => x == 0.0
    case StrValue(str) => str == "" || str == "0"
    case ArrayValue(n) => n == 0
    case ObjectValue => false
  }

  /** The configuration entries the bootstrap reads: `db`, `modules` and `providers`. */
  datatype Configs = Configs(
    db: Setting,
    modules: Option<PhpArray<ModulesProvider.Module>>,
    providers: Option<seq<string>>)

  /** The built-in providers the constructor registers, in order. */
  function BuiltIns(mode: string, db: Setting): seq<ProviderClass> {
    GenericProviders
      + (if !IsEmpty(db) then [Database] else [])
      + (if mode == ModeDefault then ViewProviders else [])
  }

  /** The extra providers `initializeProviders` keeps: classes that exist and implement the
      provider interface, in the given order. */
  function Admitted(extra: seq<string>, t: ClassTable): seq<ProviderClass> {
    if extra == [] then []
    else
      var c := extra[|extra| - 1];
      Admitted(extra[..|extra| - 1], t)
        + (if t.classExists(c) && t.implementsProvider(c) then [Configured(c)] else [])
  }

  lemma AdmittedSnoc(extra: seq<string>, i: nat, t: ClassTable)
    requires i < |extra|
    ensures Admitted(extra[..i + 1], t) == Admitted(extra[..i], t)
      + (if t.classExists(extra[i]) && t.implementsProvider(extra[i]) then [Configured(extra[i])] else [])
  {
    assert extra[..i + 1][..i] == extra[..i];
  }

  /** Exactly the extra classes that exist and implement the provider interface are kept. */
  lemma {:induction false} AdmittedFilters(extra: seq<string>, t: ClassTable, c: string)
    ensures Configured(c) in Admitted(extra, t)
        <==> c in extra && t.classExists(c) && t.implementsProvider(c)
  {
    if extra != [] {
      var init := extra[..|extra| - 1];
      AdmittedFilters(init, t, c);
      assert extra == init + [extra[|extra| - 1]];
    }
  }

  /** The registry `reg` after registering `ps` one after another, each under its name:
      `$this->providers[$provider->getName()] = $provider`. */
  function RegisterAll(reg: map<string, Provider>, ps: seq<Provider>): map<string, Provider> {
    if ps == [] then reg
    else RegisterAll(reg, ps[..|ps| - 1])[ps[|ps| - 1].name := ps[|ps| - 1]]
  }

  /** The registry built from nothing. */
  function Registered(ps: seq<Provider>): map<string, Provider> {
    RegisterAll(map[], ps)
  }

  lemma RegisterAllSnoc(reg: map<string, Provider>, ps: seq<Provider>, p: Provider)
    ensures RegisterAll(reg, ps + [p]) == RegisterAll(reg, ps)[p.name := p]
  {
    assert (ps + [p])[..|ps|] == ps;
  }

  lemma RegisterAllPrefix(reg: map<string, Provider>, ps: seq<Provider>, k: nat)
    requires 0 < k <= |ps|
    ensures RegisterAll(reg, ps[..k]) == RegisterAll(reg, ps[..k - 1])[ps[k - 1].name := ps[k - 1]]
  {
    assert ps[..k][..k - 1] == ps[..k - 1];
  }

  /** Registering `xs` and then `ys` is registering `xs + ys`. */
  lemma {:induction false} RegisterAllConcat(reg: map<string, Provider>, xs: seq<Provider>, ys: seq<Provider>)
    ensures RegisterAll(reg, xs + ys) == RegisterAll(RegisterAll(reg, xs), ys)
  {
    if ys == [] {
      assert xs + ys == xs;
    } else {
      var init, last := ys[..|ys| - 1], ys[|ys| - 1];
      RegisterAllConcat(reg, xs, init);
      assert xs + ys == (xs + init) + [last];
      RegisterAllSnoc(reg, xs + init, last);
    }
  }

  /** The last provider of `ps` named `name`. */
  function LastNamed(ps: seq<Provider>, name: string): Option<Provider> {
    if ps == [] then None
    else if ps[|ps| - 1].name == name then Some(ps[|ps| - 1])
    else LastNamed(ps[..|ps| - 1], name)
  }

  /** Each name maps to the provider registered last under it: re-registering a name replaces
      the earlier entry, and only registered names are present. */
  lemma {:induction false} RegisteredLookup(ps: seq<Provider>, name: string)
    ensures name in Registered(ps) <==> LastNamed(ps, name).Some?
    ensures name in Registered(ps) ==> Registered(ps)[name] == LastNamed(ps, name).value
  {
    if ps != [] {
      RegisteredLookup(ps[..|ps| - 1], name);
    }
  }

  /** What stops the provider registrations: the modules provider first, then a `db` entry
      that is set but not an array. */
  function ServicesError(configs: Configs, vendor: PhpArray<seq<string>>, sep: string)
    : Option<AppError>
  {
    if ModulesProvider.VendorModules(vendor, sep).Failure? then
      Some(ModulesFailed(ModulesProvider.VendorModules(vendor, sep).error))
    else if !IsEmpty(configs.db) && !configs.db.ArrayValue? then Some(ParametersNotArray("db"))
    else None
  }

  /** What stops the constructor, in the order it meets it. */
  function StartupError(mode: string, configs: Configs, vendor: PhpArray<seq<string>>, sep: string)
    : Option<AppError>
  {
    if KindOf(mode).None? then Some(InvalidMode(mode)) else ServicesError(configs, vendor, sep)
  }

  /** The property `$app` as declared, typed `MvcApplication`: a console cannot be stored. */
  function AssignAppAsWritten(kind: AppKind): (r: Result<AppKind, AppError>)
    ensures r.Success? <==> kind == Mvc
  {
    if kind == Mvc then Success(kind) else Failure(ConsoleNotMvc)
  }

  /** As declared, the console mode can never start: `createApplication('cli')` builds a
      console, which the `MvcApplication` property rejects. */
  lemma CliModeRejectedAsWritten()
    ensures KindOf(ModeCli) == Some(Console)
    ensures AssignAppAsWritten(KindOf(ModeCli).value) == Failure(ConsoleNotMvc)
  {
  }

  class Application {
    var mode: string
    var rootPath: string
    var app: AppKind
    /** The initialised providers, by name. */
    var providers: map<string, Provider>
    /** The modules handed to the framework application by the modules provider. */
    var modules: PhpArray<ModulesProvider.Module>

    /** The object before its constructor body runs: no provider yet. */
    constructor Blank()
      ensures providers == map[] && modules == []
    {
      mode, rootPath, app := ModeDefault, "", Mvc;
      providers, modules := map[], [];
    }

    /** `getMode()`: the mode recorded by `createApplication`. */
    function GetMode(): (r: string)
      reads this
      ensures r == mode
    {
      mode
    }

    /** `getRootPath()`: the path stored by `setRootPath`. */
    function GetRootPath(): (r: string)
      reads this
      ensures r == rootPath
    {
      rootPath
    }

    /** `getApplication()`: the application kind the constructor stored. */
    function GetApplication(): (r: AppKind)
      reads this
      ensures r == app
    {
      app
    }

    /** `createApplication($mode)`: the mode is recorded before it is checked. */
    method CreateApplication(mode: string) returns (r: Result<AppKind, AppError>)
      modifies this
      ensures GetMode() == mode
      ensures KindOf(mode).Some? ==> r == Success(KindOf(mode).value)
      ensures KindOf(mode).None? ==> r == Failure(InvalidMode(mode))
      ensures rootPath == old(rootPath) && app == old(app) && providers == old(providers)
      ensures modules == old(modules)
    {
      this.mode := mode;
      if mode == ModeDefault || mode == ModeApi {
        return Success(Mvc);
      } else if mode == ModeCli {
        return Success(Console);
      }
      return Failure(InvalidMode(mode));
    }

    /** `setRootPath($path)`; `getRootPath()` then gives `$path` back. */
    method SetRootPath(path: string)
      modifies this
      ensures GetRootPath() == path
      ensures mode == old(mode) && app == old(app) && providers == old(providers)
      ensures modules == old(modules)
    {
      rootPath := path;
    }

    /** `initializeProvider($provider)`: the provider is stored under its name, replacing a
        provider of the same name. */
    method InitializeProvider(p: Provider)
      modifies this
      ensures providers == old(providers)[p.name := p]
      ensures mode == old(mode) && rootPath == old(rootPath) && app == old(app)
      ensures modules == old(modules)
    {
      providers := providers[p.name := p];
    }

    /** `initializeProviders($providers)`: classes that do not exist or do not implement the
        provider interface are skipped; the others are initialised in order. */
    method InitializeProviders(extra: seq<string>, t: ClassTable)
      modifies this
      ensures providers == RegisterAll(old(providers), ProvidersOf(Admitted(extra, t), t))
      ensures mode == old(mode) && rootPath == old(rootPath) && app == old(app)
      ensures modules == old(modules)
    {
      ghost var start := providers;
      ghost var admitted: seq<ProviderClass> := [];
      var i := 0;
      while i < |extra|
        invariant 0 <= i <= |extra|
        invariant admitted == Admitted(extra[..i], t)
        invariant providers == RegisterAll(start, ProvidersOf(admitted, t))
        invariant mode == old(mode) && rootPath == old(rootPath) && app == old(app)
        invariant modules == old(modules)
      {
        var c := extra[i];
        var ok := t.classExists(c) && t.implementsProvider(c);
        assert Admitted(extra[..i + 1], t) == admitted + (if ok then [Configured(c)] else []) by {
          AdmittedSnoc(extra, i, t);
        }
        if ok {
          var p := ProviderOf(Configured(c), t);
          InitializeProvider(p);
          assert RegisterAll(start, ProvidersOf(admitted + [Configured(c)], t))
              == RegisterAll(start, ProvidersOf(admitted, t))[p.name := p] by {
            ProvidersOfAppend(admitted, Configured(c), t);
            RegisterAllSnoc(start, ProvidersOf(admitted, t), p);
          }
          admitted := admitted + [Configured(c)];
        }
        i := i + 1;
      }
      assert extra[..i] == extra;
    }

    /** The sixteen generic provider registrations; the modules provider hands the merged
        module list to the application. */
    method RegisterGenericProviders(custom: PhpArray<ModulesProvider.Module>, vendor: PhpArray<seq<string>>,
                                    t: ClassTable, sep: string)
      returns (err: Option<AppError>)
      requires providers == map[]
      modifies this
      ensures err.Some? <==> ModulesProvider.VendorModules(vendor, sep).Failure?
      ensures err.Some? ==> err.value == ModulesFailed(ModulesProvider.VendorModules(vendor, sep).error)
      ensures err.None? ==>
        && providers == Registered(ProvidersOf(GenericProviders, t))
        && modules == Merge(ModulesProvider.VendorModules(vendor, sep).value, custom)
      ensures mode == old(mode) && rootPath == old(rootPath) && app == old(app)
    {
      InitializeProvider(ProviderOf(Registry, t));
      InitializeProvider(ProviderOf(Config, t));
      InitializeProvider(ProviderOf(EventsManager, t));
      InitializeProvider(ProviderOf(ModelsManager, t));
      InitializeProvider(ProviderOf(ModelsMetadata, t));
      var raw := ModulesProvider.RawModules(Some(vendor), Some(custom));
      var registered := ModulesProvider.Register(raw, sep);
      if registered.Failure? {
        return Some(ModulesFailed(registered.error));
      }
      modules := registered.value;
      InitializeProvider(ProviderOf(Modules, t));
      InitializeProvider(ProviderOf(Request, t));
      InitializeProvider(ProviderOf(Router, t));
      InitializeProvider(ProviderOf(Dispatcher, t));
      InitializeProvider(ProviderOf(Response, t));
      InitializeProvider(ProviderOf(Escaper, t));
      InitializeProvider(ProviderOf(Tag, t));
      InitializeProvider(ProviderOf(Cookies, t));
      InitializeProvider(ProviderOf(Session, t));
      InitializeProvider(ProviderOf(SecurityService, t));
      InitializeProvider(ProviderOf(Flash, t));
      GenericRegistered(t);
      return None;
    }

    /** The provider registrations of the constructor: the generic providers, the database
        provider when `db` is set, the view providers in the default mode, then the extra
        providers of the configuration. */
    method RegisterServices(configs: Configs, vendor: PhpArray<seq<string>>, t: ClassTable,
                            sep: string)
      returns (err: Option<AppError>)
      requires providers == map[]
      modifies this
      ensures err == ServicesError(configs, vendor, sep)
      ensures err.None? ==>
        && providers
           == Registered(ProvidersOf(BuiltIns(mode, configs.db) + Admitted(configs.providers.GetOr([]), t), t))
        && modules
           == Merge(ModulesProvider.VendorModules(vendor, sep).value, configs.modules.GetOr([]))
      ensures mode == old(mode) && rootPath == old(rootPath) && app == old(app)
    {
      err := RegisterGenericProviders(configs.modules.GetOr([]), vendor, t, sep);
      if err.Some? {
        return;
      }
      ghost var generic := ProvidersOf(GenericProviders, t);
      assert providers == Registered(generic);

      ghost var withDb := GenericProviders + (if !IsEmpty(configs.db) then [Database] else []);
      if !IsEmpty(configs.db) {
        if !configs.db.ArrayValue? {
          return Some(ParametersNotArray("db"));
        }
        InitializeProvider(ProviderOf(Database, t));
        assert Registered(ProvidersOf(withDb, t)) == Registered(generic)[t.nameOf(Database) := ProviderOf(Database, t)] by {
          ProvidersOfAppend(GenericProviders, Database, t);
          RegisterAllSnoc(map[], generic, ProviderOf(Database, t));
        }
      } else {
        assert withDb == GenericProviders;
      }
      assert providers == Registered(ProvidersOf(withDb, t));

      if mode == ModeDefault {
        InitializeProvider(ProviderOf(Url, t));
        InitializeProvider(ProviderOf(View, t));
        InitializeProvider(ProviderOf(VoltTemplateEngine, t));
        assert Registered(ProvidersOf(withDb + ViewProviders, t))
            == RegisterAll(Registered(ProvidersOf(withDb, t)), ProvidersOf(ViewProviders, t)) by {
          ProvidersOfConcat(withDb, ViewProviders, t);
          RegisterAllConcat(map[], ProvidersOf(withDb, t), ProvidersOf(ViewProviders, t));
        }
        ViewRegistered(Registered(ProvidersOf(withDb, t)), t);
      } else {
        assert BuiltIns(mode, configs.db) == withDb;
      }
      ghost var builtIns := ProvidersOf(BuiltIns(mode, configs.db), t);
      assert providers == Registered(builtIns);

      InitializeProviders(configs.providers.GetOr([]), t);
      ghost var admitted := Admitted(configs.providers.GetOr([]), t);
      assert Registered(ProvidersOf(BuiltIns(mode, configs.db) + admitted, t))
          == RegisterAll(Registered(builtIns), ProvidersOf(admitted, t)) by {
        ProvidersOfConcat(BuiltIns(mode, configs.db), admitted, t);
        RegisterAllConcat(map[], builtIns, ProvidersOf(admitted, t));
      }
      return None;
    }

    /** The constructor `new Application($rootPath, $mode, $configs, $vendorModules)`, with the
        console stored as the corrected property type allows. */
    static method New(rootPath: string, mode: string, configs: Configs,
                      vendor: PhpArray<seq<string>>, t: ClassTable, sep: string)
      returns (r: Result<Application, AppError>)
      ensures StartupError(mode, configs, vendor, sep).Some? ==>
        r == Failure(StartupError(mode, configs, vendor, sep).value)
      ensures StartupError(mode, configs, vendor, sep).None? ==>
        && r.Success? && fresh(r.value)
        && r.value.GetMode() == mode && r.value.GetRootPath() == rootPath
        && r.value.GetApplication() == KindOf(mode).value
        && r.value.providers
           == Registered(ProvidersOf(BuiltIns(mode, configs.db) + Admitted(configs.providers.GetOr([]), t), t))
        && r.value.modules
           == Merge(ModulesProvider.VendorModules(vendor, sep).value, configs.modules.GetOr([]))
    {
      var a := new Application.Blank();
      var kind := a.CreateApplication(mode);
      if kind.Failure? {
        return Failure(kind.error);
      }
      a.app := kind.value;
      a.SetRootPath(rootPath);
      var err := a.RegisterServices(configs, vendor, t, sep);
      if err.Some? {
        return Failure(err.value);
      }
      return Success(a);
    }
  }

  /** The sixteen generic registrations, one after another. */
  lemma GenericRegistered(t: ClassTable)
    ensures Registered(ProvidersOf(GenericProviders, t))
      == map[]
         [t.nameOf(Registry) := ProviderOf(Registry, t)]
         [t.nameOf(Config) := ProviderOf(Config, t)]
         [t.nameOf(EventsManager) := ProviderOf(EventsManager, t)]
         [t.nameOf(ModelsManager) := ProviderOf(ModelsManager, t)]
         [t.nameOf(ModelsMetadata) := ProviderOf(ModelsMetadata, t)]
         [t.nameOf(Modules) := ProviderOf(Modules, t)]
         [t.nameOf(Request) := ProviderOf(Request, t)]
         [t.nameOf(Router) := ProviderOf(Router, t)]
         [t.nameOf(Dispatcher) := ProviderOf(Dispatcher, t)]
         [t.nameOf(Response) := ProviderOf(Response, t)]
         [t.nameOf(Escaper) := ProviderOf(Escaper, t)]
         [t.nameOf(Tag) := ProviderOf(Tag, t)]
         [t.nameOf(Cookies) := ProviderOf(Cookies, t)]
         [t.nameOf(Session) := ProviderOf(Session, t)]
         [t.nameOf(SecurityService) := ProviderOf(SecurityService, t)]
         [t.nameOf(Flash) := ProviderOf(Flash, t)]
  {
    var q0 := [Registry, Config, EventsManager, ModelsManager];
    var q1 := [ModelsMetadata, Modules, Request, Router];
    var q2 := [Dispatcher, Response, Escaper, Tag];
    var q3 := [Cookies, Session, SecurityService, Flash];
    var r0 := RegisterAll(map[], ProvidersOf(q0, t));
    var r1 := RegisterAll(r0, ProvidersOf(q1, t));
    var r2 := RegisterAll(r1, ProvidersOf(q2, t));
    assert Registered(ProvidersOf(GenericProviders, t)) == RegisterAll(r2, ProvidersOf(q3, t)) by {
      assert GenericProviders == q0 + q1 + q2 + q3;
      ProvidersOfConcat(q0, q1, t);
      ProvidersOfConcat(q0 + q1, q2, t);
      ProvidersOfConcat(q0 + q1 + q2, q3, t);
      RegisterAllConcat(map[], ProvidersOf(q0, t), ProvidersOf(q1, t));
      RegisterAllConcat(map[], ProvidersOf(q0 + q1, t), ProvidersOf(q2, t));
      RegisterAllConcat(map[], ProvidersOf(q0 + q1 + q2, t), ProvidersOf(q3, t));
    }
    RegisterFour(map[], q0, t);
    RegisterFour(r0, q1, t);
    RegisterFour(r1, q2, t);
    RegisterFour(r2, q3, t);
  }

  /** Four registrations, one after another. */
  lemma RegisterFour(reg: map<string, Provider>, cs: seq<ProviderClass>, t: ClassTable)
    requires |cs| == 4
    ensures RegisterAll(reg, ProvidersOf(cs, t))
      == reg[t.nameOf(cs[0]) := ProviderOf(cs[0], t)]
            [t.nameOf(cs[1]) := ProviderOf(cs[1], t)]
            [t.nameOf(cs[2]) := ProviderOf(cs[2], t)]
            [t.nameOf(cs[3]) := ProviderOf(cs[3], t)]
  {
    var ps := ProvidersOf(cs, t);
    RegisterAllPrefix(reg, ps, 1);
    RegisterAllPrefix(reg, ps, 2);
    RegisterAllPrefix(reg, ps, 3);
    RegisterAllPrefix(reg, ps, 4);
    assert ps[..0] == [] && ps[..4] == ps;
  }

  /** The three web-mode registrations, one after another. */
  lemma ViewRegistered(reg: map<string, Provider>, t: ClassTable)
    ensures RegisterAll(reg, ProvidersOf(ViewProviders, t))
      == reg[t.nameOf(Url) := ProviderOf(Url, t)]
            [t.nameOf(View) := ProviderOf(View, t)]
            [t.nameOf(VoltTemplateEngine) := ProviderOf(VoltTemplateEngine, t)]
  {
    var ps := ProvidersOf(ViewProviders, t);
    RegisterAllPrefix(reg, ps, 1);
    RegisterAllPrefix(reg, ps, 2);
    RegisterAllPrefix(reg, ps, 3);
    assert ps[..0] == [] && ps[..3] == ps;
  }

  lemma ProvidersOfAppend(cs: seq<ProviderClass>, c: ProviderClass, t: ClassTable)
    ensures ProvidersOf(cs + [c], t) == ProvidersOf(cs, t) + [ProviderOf(c, t)]
  {
    assert (cs + [c])[..|cs|] == cs;
  }

  lemma ProvidersOfConcat(xs: seq<ProviderClass>, ys: seq<ProviderClass>, t: ClassTable)
    ensures ProvidersOf(xs + ys, t) == ProvidersOf(xs, t) + ProvidersOf(ys, t)
  {
  }

  /** The generic providers come first and in a fixed order, in every mode. */
  lemma GenericProvidersFirst(mode: string, db: Setting)
    ensures |BuiltIns(mode, db)| >= 16 && BuiltIns(mode, db)[..16] == GenericProviders
  {
    assert |GenericProviders| == 16;
  }

  /** The database provider is registered exactly when `db` is configured (non-empty). */
  lemma DatabaseIffConfigured(mode: string, db: Setting)
    ensures Database in BuiltIns(mode, db) <==> !IsEmpty(db)
  {
  }

  /** The URL, view and Volt providers are registered only in the default mode. */
  lemma ViewProvidersOnlyInDefault(mode: string, db: Setting, c: ProviderClass)
    requires c in ViewProviders
    ensures c in BuiltIns(mode, db) <==> mode == ModeDefault
  {
  }

  /** A configured provider registered last under its name is the one the registry keeps,
      even over a built-in provider reporting the same name. */
  lemma ConfiguredProviderWins(mode: string, db: Setting, extra: seq<string>, t: ClassTable)
    requires extra != [] && t.classExists(extra[|extra| - 1]) && t.implementsProvider(extra[|extra| - 1])
    ensures var c := Configured(extra[|extra| - 1]);
      var reg := Registered(ProvidersOf(BuiltIns(mode, db) + Admitted(extra, t), t));
      t.nameOf(c) in reg && reg[t.nameOf(c)] == ProviderOf(c, t)
  {
    var c := Configured(extra[|extra| - 1]);
    var cs := BuiltIns(mode, db) + Admitted(extra, t);
    assert cs[|cs| - 1] == c;
    var ps := ProvidersOf(cs, t);
    assert ps[|ps| - 1] == ProviderOf(c, t);
  }

  /** Every valid mode starts once the console may be stored: with a configuration that raises
      nothing else, `cli`, `api` and `default` all give an application. */
  lemma EveryModeStarts(mode: string, configs: Configs, vendor: PhpArray<seq<string>>, sep: string)
    requires ModulesProvider.StringKeys(vendor)
    requires IsEmpty(configs.db) || configs.db.ArrayValue?
    ensures StartupError(mode, configs, vendor, sep).None? <==> mode in {ModeDefault, ModeApi, ModeCli}
  {
    ModulesProvider.VendorModuleLookup(vendor, sep, StrKey(""));
  }
}

=== FILE: clock.dfy ===
/** The two clock readings the token scheme uses: `date('Y-m-d')` and `date('Y-m-d H')`.
    The clock itself is a parameter: a `Moment` is the local calendar time it would report. */
module Clock {

  type Month = m: nat | 1 <= m <= 12 witness 1
  type Day = d: nat | 1 <= d <= 31 witness 1
  type Hour = h: nat | h < 24

  datatype Moment = Moment(year: nat, month: Month, day: Day, hour: Hour)

  function Pow10(w: nat): nat {
    if w == 0 then 1 else 10 * Pow10(w - 1)
  }

  function Digit(d: nat): char
    requires d < 10
  {
    (48 + d) as char
  }

  /** The last `w` decimal digits of `n`, zero-padded. */
  function Fixed(n: nat, w: nat): (r: string)
    ensures |r| == w
  {
    if w == 0 then "" else Fixed(n / 10, w - 1) + [Digit(n % 10)]
  }

  /** All decimal digits of `n`, without padding. */
  function Decimal(n: nat): string {
    if n < 10 then [Digit(n)] else Decimal(n / 10) + [Digit(n % 10)]
  }

  /** The `Y` format: at least four digits. */
  function Year(y: nat): string {
    if y < 10000 then Fixed(y, 4) else Decimal(y)
  }

  /** `date('Y-m-d')`. */
  function DateStamp(t: Moment): string {
    Year(t.year) + "-" + Fixed(t.month, 2) + "-" + Fixed(t.day, 2)
  }

  /** `date('Y-m-d H')`. */
  function HourStamp(t: Moment): string {
    DateStamp(t) + " " + Fixed(t.hour, 2)
  }

  /** Zero-padded numerals of a fixed width name their number. */
  lemma {:induction false} FixedInjective(a: nat, b: nat, w: nat)
    requires a < Pow10(w) && b < Pow10(w)
    requires Fixed(a, w) == Fixed(b, w)
    ensures a == b
  {
    if w > 0 {
      var fa, fb := Fixed(a, w), Fixed(b, w);
      assert fa[..w - 1] == Fixed(a / 10, w - 1);
      assert fb[..w - 1] == Fixed(b / 10, w - 1);
      assert Digit(a % 10) == fa[w - 1] == fb[w - 1] == Digit(b % 10);
      FixedInjective(a / 10, b / 10, w - 1);
    }
  }

  /** Two moments of the years 0 to 9999 give the same `Y-m-d` reading exactly when they fall
      on the same calendar day. */
  lemma DateStampInjective(t1: Moment, t2: Moment)
    requires t1.year < 10000 && t2.year < 10000
    ensures DateStamp(t1) == DateStamp(t2)
        <==> (t1.year, t1.month, t1.day) == (t2.year, t2.month, t2.day)
  {
    var s1, s2 := DateStamp(t1), DateStamp(t2);
    if s1 == s2 {
      assert s1[..4] == Fixed(t1.year, 4) && s2[..4] == Fixed(t2.year, 4);
      assert s1[5..7] == Fixed(t1.month, 2) && s2[5..7] == Fixed(t2.month, 2);
      assert s1[8..10] == Fixed(t1.day, 2) && s2[8..10] == Fixed(t2.day, 2);
      FixedInjective(t1.year, t2.year, 4);
      FixedInjective(t1.month, t2.month, 2);
      FixedInjective(t1.day, t2.day, 2);
    }
  }

  /** Two moments of the years 0 to 9999 give the same `Y-m-d H` reading exactly when they fall
      in the same hour of the same day. */
  lemma HourStampInjective(t1: Moment, t2: Moment)
    requires t1.year < 10000 && t2.year < 10000
    ensures HourStamp(t1) == HourStamp(t2) <==> t1 == t2
  {
    var s1, s2 := HourStamp(t1), HourStamp(t2);
    if s1 == s2 {
      assert s1[..10] == DateStamp(t1) && s2[..10] == DateStamp(t2);
      assert s1[11..] == Fixed(t1.hour, 2) && s2[11..] == Fixed(t2.hour, 2);
      DateStampInjective(t1, t2);
      FixedInjective(t1.hour, t2.hour, 2);
    }
  }
}

=== FILE: models.dfy ===
/** The model layer: field encryption and decryption under the database token, the re-collection
    of decrypted rows by `find`, and the rewrite of query parameters with an `active` clause
    (namespace Phlexus\Models: `Model` and `Simple`). */
module Models {
  import opened Wrappers
  import Text
  import Security

  /** A model attribute: unset/null, a string, the `false` a failed cipher call returns, or
      any other scalar (an integer, a float, `true`). */
  datatype Value = Null | Str(s: string) | False | OtherScalar

  /** A record, as the map from attribute name to value that `toArray()` also gives. */
  type Fields = map<string, Value>

  /** `isset($model->{$name})`: the attribute exists and is not null (`false` is set). */
  predicate IsSet(f: Fields, name: string) {
    name in f && f[name] != Null
  }

  /** The two OpenSSL calls, as functions of (data, cipher method, key); `None` is `false`. */
  datatype Cipher = Cipher(
    encrypt: (string, string, string) -> Option<string>,
    decrypt: (string, string, string) -> Option<string>)

  const CipherMethod: string := "aes-256-cbc-hmac-sha256"

  /** What the model assumes of the cipher: decryption under the same method and key undoes a
      successful encryption. */
  ghost predicate Inverts(c: Cipher) {
    forall data, key :: c.encrypt(data, CipherMethod, key).Some? ==>
      c.decrypt(c.encrypt(data, CipherMethod, key).value, CipherMethod, key) == Some(data)
  }

  datatype Direction = Encrypting | Decrypting

  function Apply(c: Cipher, dir: Direction, data: string, key: string): Option<string> {
    match dir
    case Encrypting => c.encrypt(data, CipherMethod, key)
    case Decrypting => c.decrypt(data, CipherMethod, key)
  }

  /** What the assignment stores: the cipher's string, or `false`. */
  function Stored(o: Option<string>): Value {
    if o.Some? then Str(o.value) else False
  }

  datatype Scalar = IntVal(i: int) | StrVal(s: string)

  /** What the model layer reads of a concrete model class: its name (`static::class`), its own
      `getEncryptFields()` if it overrides the base one, whether it declares an `active`
      property, and its `ENABLED` class constant if it has one. */
  datatype ModelClass = ModelClass(
    name: string,
    encryptFields: Option<seq<string>>,
    hasActive: bool,
    enabled: Option<Scalar>)

  /** `static::getEncryptFields()`; the base class returns the empty list. */
  function GetEncryptFields(cls: ModelClass): (r: seq<string>)
    ensures cls.encryptFields.None? ==> r == []
    ensures cls.encryptFields.Some? ==> r == cls.encryptFields.value
  {
    cls.encryptFields.GetOr([])
  }

  /** The exceptions the layer lets escape. */
  datatype ModelError =
    | TokenUnavailable(cause: Security.SecurityError)  // an unset hash read by the token
    | NotAString(field: string)                        // strict_types: openssl_* given a non-string
    | UndefinedClassConstant(constant: string)         // `static::ENABLED` on a class without it

  predicate Distinct(names: seq<string>) {
    forall i, j :: 0 <= i < j < |names| ==> names[i] != names[j]
  }

  /** Every listed attribute is unset or holds a string. */
  predicate OnlyStringsListed(f: Fields, names: seq<string>) {
    forall k :: k in names && k in f ==> f[k] == Null || f[k].Str?
  }

  /** The state a pass over the field list leaves: the attributes as far as they were
      rewritten, and the exception that stopped it, if any. */
  datatype Pass = Pass(fields: Fields, error: Option<ModelError>)

  /** One iteration of the `foreach`: skip an unset attribute, otherwise overwrite it. */
  function FieldStep(p: Pass, name: string, c: Cipher, dir: Direction, key: string): Pass {
    if p.error.Some? || !IsSet(p.fields, name) then p
    else match p.fields[name]
      case Str(s) => Pass(p.fields[name := Stored(Apply(c, dir, s, key))], None)
      case _ => Pass(p.fields, Some(NotAString(name)))
  }

  /** The whole `foreach`, one field after another. */
  function Walk(f: Fields, names: seq<string>, c: Cipher, dir: Direction, key: string): Pass {
    if names == [] then Pass(f, None)
    else FieldStep(Walk(f, names[..|names| - 1], c, dir, key), names[|names| - 1], c, dir, key)
  }

  /** `encrypt`/`decrypt`: an empty list returns at once; otherwise the model token is read
      once, then every listed field is walked. */
  function CipherFields(f: Fields, names: seq<string>, token: Result<string, Security.SecurityError>,
                        c: Cipher, dir: Direction): Pass {
    if |names| == 0 then Pass(f, None)
    else match token
      case Failure(e) => Pass(f, Some(TokenUnavailable(e)))
      case Success(key) => Walk(f, names, c, dir, key)
  }

  /** `getModelToken()`: the static database token with the default empty argument. */
  function ModelToken(sec: Security.Security, d: Security.Digests): (r: Result<string, Security.SecurityError>)
    reads sec
    ensures r.Success? <==> sec.appHash.Some? && sec.userHash.Some? && sec.databaseHash.Some?
    ensures r.Success? ==>
      r.value == d.md5(sec.appHash.value + sec.userHash.value + sec.databaseHash.value)
    ensures sec.databaseHash.None? ==> r == Failure(Security.Uninitialized("databaseHash"))
  {
    sec.StaticDatabaseToken(d, "")
  }

  lemma {:induction false} WalkErrorSticks(f: Fields, names: seq<string>, j: nat, c: Cipher,
                                           dir: Direction, key: string)
    requires j <= |names| && Walk(f, names[..j], c, dir, key).error.Some?
    ensures Walk(f, names, c, dir, key) == Walk(f, names[..j], c, dir, key)
  {
    if j < |names| {
      var init := names[..|names| - 1];
      assert init[..j] == names[..j];
      WalkErrorSticks(f, init, j, c, dir, key);
    } else {
      assert names[..j] == names;
    }
  }

  /** The pass keeps the set of attributes, and touches neither an unlisted attribute nor a
      listed one that is unset. */
  lemma {:induction false} WalkFrame(f: Fields, names: seq<string>, c: Cipher, dir: Direction,
                                     key: string)
    ensures Walk(f, names, c, dir, key).fields.Keys == f.Keys
    ensures forall k :: k in f && (k !in names || f[k] == Null) ==>
      Walk(f, names, c, dir, key).fields[k] == f[k]
  {
    if names != [] {
      var init := names[..|names| - 1];
      WalkFrame(f, init, c, dir, key);
      forall k | k in f && (k !in names || f[k] == Null)
        ensures Walk(f, names, c, dir, key).fields[k] == f[k]
      {
        assert k !in names ==> k !in init;
      }
    }
  }

  /** With distinct names and only strings among them, the pass completes and every listed
      string attribute holds the cipher's result on its original value. */
  lemma {:induction false} WalkPointwise(f: Fields, names: seq<string>, c: Cipher, dir: Direction,
                                         key: string)
    requires Distinct(names) && OnlyStringsListed(f, names)
    ensures Walk(f, names, c, dir, key).error == None
    ensures Walk(f, names, c, dir, key).fields.Keys == f.Keys
    ensures forall k :: k in names && k in f && f[k].Str? ==>
      Walk(f, names, c, dir, key).fields[k] == Stored(Apply(c, dir, f[k].s, key))
  {
    WalkFrame(f, names, c, dir, key);
    if names != [] {
      var init := names[..|names| - 1];
      var last := names[|names| - 1];
      assert Distinct(init);
      assert OnlyStringsListed(f, init);
      WalkPointwise(f, init, c, dir, key);
      WalkFrame(f, init, c, dir, key);
      assert last !in init;
      forall k | k in names && k in f && f[k].Str?
        ensures Walk(f, names, c, dir, key).fields[k] == Stored(Apply(c, dir, f[k].s, key))
      {
        if k != last {
          assert k in init;
        }
      }
    }
  }

  /** The frame of `encrypt` and `decrypt` (src/Models/Model.php): attributes are neither added
      nor removed, unlisted and unset attributes keep their values, an empty list leaves the
      record alone and reads no token, and an unreadable token stops the pass before any
      attribute is written. */
  lemma CipherFieldsFrame(f: Fields, names: seq<string>, token: Result<string, Security.SecurityError>,
                          c: Cipher, dir: Direction)
    ensures CipherFields(f, names, token, c, dir).fields.Keys == f.Keys
    ensures forall k :: k in f && (k !in names || f[k] == Null) ==>
      CipherFields(f, names, token, c, dir).fields[k] == f[k]
    ensures names == [] ==> CipherFields(f, names, token, c, dir) == Pass(f, None)
    ensures names != [] && token.Failure? ==>
      CipherFields(f, names, token, c, dir) == Pass(f, Some(TokenUnavailable(token.error)))
  {
    if names != [] && token.Success? {
      WalkFrame(f, names, c, dir, token.value);
    }
  }

  /** Each listed attribute that holds a string is replaced by the cipher's result under the
      one model token; a failed call stores `false`. */
  lemma CipherFieldsPointwise(f: Fields, names: seq<string>, token: Result<string, Security.SecurityError>,
                              c: Cipher, dir: Direction)
    requires token.Success? && Distinct(names) && OnlyStringsListed(f, names)
    ensures CipherFields(f, names, token, c, dir).error == None
    ensures CipherFields(f, names, token, c, dir).fields.Keys == f.Keys
    ensures forall k :: k in names && k in f && f[k].Str? ==>
      CipherFields(f, names, token, c, dir).fields[k] == Stored(Apply(c, dir, f[k].s, token.value))
  {
    if names != [] {
      WalkPointwise(f, names, c, dir, token.value);
    }
  }

  /** Decrypting what was encrypted under the same token restores the record, provided every
      listed string encrypts. */
  lemma EncryptDecryptRoundTrip(f: Fields, names: seq<string>, token: Result<string, Security.SecurityError>,
                                c: Cipher)
    requires Inverts(c) && token.Success? && Distinct(names) && OnlyStringsListed(f, names)
    requires forall k :: k in names && k in f && f[k].Str? ==>
      c.encrypt(f[k].s, CipherMethod, token.value).Some?
    ensures CipherFields(f, names, token, c, Encrypting).error == None
    ensures CipherFields(CipherFields(f, names, token, c, Encrypting).fields, names, token, c, Decrypting)
         == Pass(f, None)
  {
    var e := CipherFields(f, names, token, c, Encrypting);
    CipherFieldsFrame(f, names, token, c, Encrypting);
    CipherFieldsPointwise(f, names, token, c, Encrypting);
    assert OnlyStringsListed(e.fields, names);
    var back := CipherFields(e.fields, names, token, c, Decrypting);
    CipherFieldsFrame(e.fields, names, token, c, Decrypting);
    CipherFieldsPointwise(e.fields, names, token, c, Decrypting);
    forall k | k in f ensures back.fields[k] == f[k] {
      if k in names && f[k].Str? {
        assert e.fields[k] == Str(c.encrypt(f[k].s, CipherMethod, token.value).value);
      }
    }
    assert back.fields == f;
  }

  /** The result of `openssl_decrypt` is stored unconditionally: a failed decryption leaves
      `false` in the attribute instead of raising. */
  lemma FailedDecryptStoresFalse(f: Fields, names: seq<string>, token: Result<string, Security.SecurityError>,
                                 c: Cipher, name: string)
    requires token.Success? && Distinct(names) && OnlyStringsListed(f, names)
    requires name in names && name in f && f[name].Str?
    requires c.decrypt(f[name].s, CipherMethod, token.value).None?
    ensures CipherFields(f, names, token, c, Decrypting).error == None
    ensures name in CipherFields(f, names, token, c, Decrypting).fields
    ensures CipherFields(f, names, token, c, Decrypting).fields[name] == False
  {
    CipherFieldsPointwise(f, names, token, c, Decrypting);
  }

  /** Under strict types a listed attribute holding `false` or any other non-string scalar
      makes the pass raise. */
  lemma {:induction false} NonStringListedRaises(f: Fields, names: seq<string>,
                                                 token: Result<string, Security.SecurityError>,
                                                 c: Cipher, dir: Direction, j: nat)
    requires j < |names| && names[j] in f && f[names[j]] != Null && !f[names[j]].Str?
    ensures CipherFields(f, names, token, c, dir).error.Some?
    decreases j
  {
    if names[j] in names[..j] {
      var i :| 0 <= i < j && names[i] == names[j];
      NonStringListedRaises(f, names, token, c, dir, i);
    } else if token.Success? {
      var key := token.value;
      var pre := Walk(f, names[..j], c, dir, key);
      if pre.error.None? {
        WalkFrame(f, names[..j], c, dir, key);
        assert names[..j + 1][..j] == names[..j];
        assert Walk(f, names[..j + 1], c, dir, key).error == Some(NotAString(names[j]));
        WalkErrorSticks(f, names, j + 1, c, dir, key);
      } else {
        WalkErrorSticks(f, names, j, c, dir, key);
      }
    }
  }

  /** Hence a record whose decryption failed on a listed attribute cannot be encrypted again
      (`beforeSave` after `afterFetch`). */
  lemma FailedDecryptBlocksEncrypt(f: Fields, names: seq<string>,
                                   token: Result<string, Security.SecurityError>, c: Cipher, j: nat)
    requires token.Success? && Distinct(names) && OnlyStringsListed(f, names)
    requires j < |names| && names[j] in f && f[names[j]].Str?
    requires c.decrypt(f[names[j]].s, CipherMethod, token.value).None?
    ensures CipherFields(CipherFields(f, names, token, c, Decrypting).fields, names, token, c, Encrypting)
            .error.Some?
  {
    var back := CipherFields(f, names, token, c, Decrypting);
    FailedDecryptStoresFalse(f, names, token, c, names[j]);
    NonStringListedRaises(back.fields, names, token, c, Encrypting, j);
  }

  class Model {
    const cls: ModelClass
    var fields: Fields

    constructor (cls: ModelClass, fields: Fields)
      ensures this.cls == cls && this.fields == fields
    {
      this.cls := cls;
      this.fields := fields;
    }

    /** The shared body of `encrypt` and `decrypt`: the in-place loop over the field list. */
    static method ApplyCipher(model: Model, dir: Direction, sec: Security.Security,
                              d: Security.Digests, c: Cipher) returns (err: Option<ModelError>)
      modifies model
      ensures var p := CipherFields(old(model.fields), GetEncryptFields(model.cls),
                                    ModelToken(sec, d), c, dir);
        model.fields == p.fields && err == p.error
    {
      var names := GetEncryptFields(model.cls);
      if |names| == 0 {
        return None;
      }
      var token := ModelToken(sec, d);
      if token.Failure? {
        return Some(TokenUnavailable(token.error));
      }
      var key := token.value;
      ghost var start := model.fields;
      var i := 0;
      while i < |names|
        invariant 0 <= i <= |names|
        invariant Walk(start, names[..i], c, dir, key) == Pass(model.fields, None)
      {
        var name := names[i];
        assert names[..i + 1][..i] == names[..i];
        assert Walk(start, names[..i + 1], c, dir, key)
            == FieldStep(Walk(start, names[..i], c, dir, key), name, c, dir, key);
        if name in model.fields && model.fields[name] != Null {
          if model.fields[name].Str? {
            var s := model.fields[name].s;
            model.fields := model.fields[name := Stored(Apply(c, dir, s, key))];
          } else {
            WalkErrorSticks(start, names, i + 1, c, dir, key);
            return Some(NotAString(name));
          }
        }
        i := i + 1;
      }
      assert names[..i] == names;
      return None;
    }

    /** `Model::encrypt($model)`. */
    static method Encrypt(model: Model, sec: Security.Security, d: Security.Digests, c: Cipher)
      returns (err: Option<ModelError>)
      modifies model
      ensures var p := CipherFields(old(model.fields), GetEncryptFields(model.cls),
                                    ModelToken(sec, d), c, Encrypting);
        model.fields == p.fields && err == p.error
    {
      err := ApplyCipher(model, Encrypting, sec, d, c);
    }

    /** `Model::decrypt($model)`. */
    static method Decrypt(model: Model, sec: Security.Security, d: Security.Digests, c: Cipher)
      returns (err: Option<ModelError>)
      modifies model
      ensures var p := CipherFields(old(model.fields), GetEncryptFields(model.cls),
                                    ModelToken(sec, d), c, Decrypting);
        model.fields == p.fields && err == p.error
    {
      err := ApplyCipher(model, Decrypting, sec, d, c);
    }

    /** The `afterFetch` hook decrypts the record itself. */
    method AfterFetch(sec: Security.Security, d: Security.Digests, c: Cipher)
      returns (err: Option<ModelError>)
      modifies this
      ensures var p := CipherFields(old(fields), GetEncryptFields(cls), ModelToken(sec, d), c,
                                    Decrypting);
        fields == p.fields && err == p.error
    {
      err := Decrypt(this, sec, d, c);
    }

    /** The `beforeSave` hook encrypts the record itself. */
    method BeforeSave(sec: Security.Security, d: Security.Digests, c: Cipher)
      returns (err: Option<ModelError>)
      modifies this
      ensures var p := CipherFields(old(fields), GetEncryptFields(cls), ModelToken(sec, d), c,
                                    Encrypting);
        fields == p.fields && err == p.error
    {
      err := Encrypt(this, sec, d, c);
    }
  }

  /* ---------------------------------------------------------------------------------------- */
  /* Result sets                                                                               */

  /** A result-set property value; `rows` holds the buffered rows. */
  datatype Prop = PNull | PInt(i: int) | PStr(s: string) | PRows(rows: seq<Fields>)

  type Props = map<string, Prop>

  /** The buffered rows: none while `rows` is absent or null. */
  function CurrentRows(v: Props): seq<Fields> {
    if "rows" in v && v["rows"].PRows? then v["rows"].rows else []
  }

  /** `$this->rows[] = …` needs `rows` to be absent, null or an array. */
  predicate RowsAppendable(v: Props) {
    "rows" !in v || v["rows"].PNull? || v["rows"].PRows?
  }

  class Simple {
    var props: Props

    /** The framework's constructor is not part of this model: its properties are given. */
    constructor (initial: Props)
      ensures props == initial
    {
      props := initial;
    }

    /** `import($object)`: every property of `$object` is copied onto this set; properties it
        does not have keep their values. */
    method Import(o: Simple)
      modifies this
      ensures forall k :: k in props <==> k in old(props) || k in old(o.props)
      ensures forall k :: k in old(o.props) ==> props[k] == old(o.props)[k]
      ensures forall k :: k in old(props) && k !in old(o.props) ==> props[k] == old(props)[k]
      ensures props == old(props) + old(o.props)
    {
      var vars := o.props;
      var todo := vars.Keys;
      while todo != {}
        invariant todo <= vars.Keys
        invariant forall k :: k in props <==> k in old(props) || (k in vars && k !in todo)
        invariant forall k :: k in vars && k !in todo ==> props[k] == vars[k]
        invariant forall k :: k in old(props) && (k !in vars || k in todo) ==> props[k] == old(props)[k]
        decreases todo
      {
        var k :| k in todo;
        props := props[k := vars[k]];
        todo := todo - {k};
      }
      assert props == old(props) + vars;
    }

    /** `setRow($row)`: appends the row's array form to `rows`; nothing else changes. */
    method SetRow(row: Model)
      requires RowsAppendable(props)
      modifies this
      ensures CurrentRows(props) == old(CurrentRows(props)) + [row.fields]
      ensures "rows" in props && props["rows"].PRows?
      ensures forall k :: k != "rows" ==> (k in props <==> k in old(props))
      ensures forall k :: k != "rows" && k in props ==> props[k] == old(props)[k]
      ensures props == old(props)["rows" := PRows(old(CurrentRows(props)) + [row.fields])]
    {
      props := props["rows" := PRows(CurrentRows(props) + [row.fields])];
    }

    /** `rewind()`, as far as the model follows it: the cursor property `pointer` goes back to
        the first row. */
    method Rewind()
      modifies this
      ensures props == old(props)["pointer" := PInt(0)]
    {
      props := props["pointer" := PInt(0)];
    }
  }

  /** Decrypt every row of a cursor, in order, stopping at the first exception. */
  function DecryptedRows(rows: seq<Fields>, names: seq<string>,
                         token: Result<string, Security.SecurityError>, c: Cipher)
    : (r: Result<seq<Fields>, ModelError>)
    ensures r.Success? ==> |r.value| == |rows|
  {
    if rows == [] then Success([])
    else
      match DecryptedRows(rows[..|rows| - 1], names, token, c)
      case Failure(e) => Failure(e)
      case Success(done) =>
        var p := CipherFields(rows[|rows| - 1], names, token, c, Decrypting);
        if p.error.Some? then Failure(p.error.value) else Success(done + [p.fields])
  }

  lemma {:induction false} DecryptedRowsFailureSticks(rows: seq<Fields>, j: nat, names: seq<string>,
                                                      token: Result<string, Security.SecurityError>,
                                                      c: Cipher)
    requires j <= |rows| && DecryptedRows(rows[..j], names, token, c).Failure?
    ensures DecryptedRows(rows, names, token, c) == DecryptedRows(rows[..j], names, token, c)
  {
    if j < |rows| {
      var init := rows[..|rows| - 1];
      assert init[..j] == rows[..j];
      DecryptedRowsFailureSticks(init, j, names, token, c);
    } else {
      assert rows[..j] == rows;
    }
  }

  /** When nothing fails, row `i` of the collected set is row `i` of the cursor decrypted. */
  lemma {:induction false} DecryptedRowsAt(rows: seq<Fields>, names: seq<string>,
                                           token: Result<string, Security.SecurityError>, c: Cipher,
                                           i: nat)
    requires DecryptedRows(rows, names, token, c).Success? && i < |rows|
    ensures CipherFields(rows[i], names, token, c, Decrypting).error == None
    ensures DecryptedRows(rows, names, token, c).value[i]
         == CipherFields(rows[i], names, token, c, Decrypting).fields
  {
    var init := rows[..|rows| - 1];
    if i < |rows| - 1 {
      DecryptedRowsAt(init, names, token, c, i);
    }
  }

  /* ---------------------------------------------------------------------------------------- */
  /* Query parameters                                                                          */

  /** The parameter array of a query: the positional condition `[0]`, `conditions`, `bind`,
      and every other key, which the rewrite never reads. */
  datatype Params = Params(
    first: Option<string>,
    conditions: Option<string>,
    bind: Option<map<string, Scalar>>,
    rest: map<string, string>)

  /** A null parameter becomes `[]`. */
  const NoParams: Params := Params(None, None, None, map[])

  const ActiveNeedle: string := "active"

  /** `"$m_class.active = :injectedActive:"`. */
  function ActiveClause(cls: ModelClass): string {
    cls.name + "." + ActiveNeedle + " = :injectedActive:"
  }

  /** Where the clause goes. */
  datatype Site = NoInsert | IntoFirst | IntoConditions

  function InsertionSite(cls: ModelClass, p: Params): Site {
    if !cls.hasActive then NoInsert
    else if p.first.Some? && !Text.Contains(p.first.value, ActiveNeedle) then IntoFirst
    else if p.conditions.None? || !Text.Contains(p.conditions.value, ActiveNeedle) then IntoConditions
    else NoInsert
  }

  /** The rewrite of `injectActiveParameter` on array (or null) parameters, with `v` the value
      bound to `:injectedActive:` when a clause is inserted. */
  function Rewrite(cls: ModelClass, p: Params, v: Scalar): (r: Params)
    ensures r.rest == p.rest
    ensures InsertionSite(cls, p) == NoInsert <==> r == p
    ensures InsertionSite(cls, p) == IntoFirst ==>
      r.first == Some(p.first.value + " AND " + ActiveClause(cls)) && r.conditions == p.conditions
    ensures InsertionSite(cls, p) == IntoConditions ==>
      r.first == p.first &&
      r.conditions == Some(if p.conditions.Some? then p.conditions.value + " AND " + ActiveClause(cls)
                           else ActiveClause(cls))
    ensures InsertionSite(cls, p) != NoInsert ==>
      r.bind.Some? && "injectedActive" in r.bind.value &&
      r.bind.value["injectedActive"] == v &&
      (forall k :: k != "injectedActive" ==>
        (k in r.bind.value <==> p.bind.Some? && k in p.bind.value) &&
        (k in r.bind.value ==> r.bind.value[k] == p.bind.value[k]))
  {
    var bind := Some(p.bind.GetOr(map[])["injectedActive" := v]);
    match InsertionSite(cls, p)
    case NoInsert => p
    case IntoFirst =>
      assert |p.first.value + " AND " + ActiveClause(cls)| > |p.first.value|;
      p.(first := Some(p.first.value + " AND " + ActiveClause(cls)), bind := bind)
    case IntoConditions =>
      if p.conditions.Some? then
        assert |p.conditions.value + " AND " + ActiveClause(cls)| > |p.conditions.value|;
        p.(conditions := Some(p.conditions.value + " AND " + ActiveClause(cls)), bind := bind)
      else
        p.(conditions := Some(ActiveClause(cls)), bind := bind)
  }

  /** `defined('ENABLED') ? static::ENABLED : 1` as written: `defined` looks up a global
      constant, so the class constant is read only when a global `ENABLED` exists, and
      reading it fails when the class has none. */
  function ActiveBindValueAsWritten(globalEnabledDefined: bool, cls: ModelClass)
    : (r: Result<Scalar, ModelError>)
    ensures r.Failure? <==> globalEnabledDefined && cls.enabled.None?
  {
    if !globalEnabledDefined then Success(IntVal(1))
    else if cls.enabled.Some? then Success(cls.enabled.value)
    else Failure(UndefinedClassConstant("ENABLED"))
  }

  /** `injectActiveParameter($parameters)` as written: the bind value is computed only once a
      clause was inserted, and its failure escapes. */
  function InjectedAsWritten(globalEnabledDefined: bool, cls: ModelClass, p: Params)
    : (r: Result<Params, ModelError>)
    ensures r.Failure? <==>
      InsertionSite(cls, p) != NoInsert && globalEnabledDefined && cls.enabled.None?
    ensures r.Failure? ==> r.error == UndefinedClassConstant("ENABLED")
    ensures r.Success? && InsertionSite(cls, p) == NoInsert ==> r.value == p
    ensures r.Success? && InsertionSite(cls, p) != NoInsert ==>
      && r.value.bind.Some? && "injectedActive" in r.value.bind.value
      && r.value.bind.value["injectedActive"]
         == (if globalEnabledDefined then cls.enabled.value else IntVal(1))
  {
    if InsertionSite(cls, p) == NoInsert then Success(p)
    else match ActiveBindValueAsWritten(globalEnabledDefined, cls)
      case Failure(e) => Failure(e)
      case Success(v) => Success(Rewrite(cls, p, v))
  }

  /** `injectActiveParameter`, with its flag and conditional assignments, as written. */
  method InjectActiveParameter(globalEnabledDefined: bool, cls: ModelClass, parameters: Option<Params>)
    returns (r: Result<Params, ModelError>)
    ensures r == InjectedAsWritten(globalEnabledDefined, cls, parameters.GetOr(NoParams))
    ensures parameters.None? && !cls.hasActive ==> r == Success(NoParams)
  {
    var params := if parameters.None? then NoParams else parameters.value;
    ghost var p := params;
    if cls.hasActive {
      var inserted := false;
      if params.first.Some? && Text.StrPos(params.first.value, ActiveNeedle).None? {
        assert InsertionSite(cls, p) == IntoFirst;
        params := params.(first := Some(params.first.value + " AND " + ActiveClause(cls)));
        inserted := true;
      } else if params.conditions.None? || Text.StrPos(params.conditions.value, ActiveNeedle).None? {
        assert InsertionSite(cls, p) == IntoConditions;
        var conditions := if params.conditions.Some? then params.conditions.value + " AND " else "";
        assert conditions == "" ==> conditions + ActiveClause(cls) == ActiveClause(cls);
        params := params.(conditions := Some(conditions + ActiveClause(cls)));
        inserted := true;
      } else {
        assert InsertionSite(cls, p) == NoInsert;
      }
      if inserted {
        var bind := if params.bind.Some? then params.bind.value else map[];
        var value;
        if globalEnabledDefined {
          if cls.enabled.None? {
            return Failure(UndefinedClassConstant("ENABLED"));
          }
          value := cls.enabled.value;
        } else {
          value := IntVal(1);
        }
        bind := bind["injectedActive" := value];
        params := params.(bind := Some(bind));
        assert params == Rewrite(cls, p, value);
      }
    }
    return Success(params);
  }

  /** The value the evidently intended reading binds: the class's own `ENABLED`, or 1. */
  function ActiveBindValue(cls: ModelClass): Scalar {
    cls.enabled.GetOr(IntVal(1))
  }

  /** The corrected `injectActiveParameter`: the class constant is bound when the class
      declares one, and the rewrite never raises. */
  function Injected(cls: ModelClass, p: Params): (r: Params)
    ensures InsertionSite(cls, p) == NoInsert ==> r == p
    ensures InsertionSite(cls, p) != NoInsert ==>
      && r.bind.Some? && "injectedActive" in r.bind.value
      && r.bind.value["injectedActive"]
         == (if cls.enabled.Some? then cls.enabled.value else IntVal(1))
  {
    Rewrite(cls, p, ActiveBindValue(cls))
  }

  /** The reading as written agrees with the corrected one exactly when nothing is inserted,
      when the global constant exists just when the class declares `ENABLED`, or when a class
      without a global constant declares `ENABLED = 1`. */
  lemma AsWrittenAgreesWithCorrected(globalEnabledDefined: bool, cls: ModelClass, p: Params)
    ensures InjectedAsWritten(globalEnabledDefined, cls, p) == Success(Injected(cls, p))
        <==> || InsertionSite(cls, p) == NoInsert
             || globalEnabledDefined == cls.enabled.Some?
             || (!globalEnabledDefined && cls.enabled == Some(IntVal(1)))
  {
    if InsertionSite(cls, p) != NoInsert && InjectedAsWritten(globalEnabledDefined, cls, p).Success? {
      assert Injected(cls, p).bind.value["injectedActive"] == ActiveBindValue(cls);
    }
  }

  /** The two readings part: without a global constant, a class whose `ENABLED` is 0 still
      binds 1; with one, a class without the constant raises. */
  lemma ActiveBindValueAsWrittenDiffers()
    ensures var cls := ModelClass("Users", None, true, Some(IntVal(0)));
      InjectedAsWritten(false, cls, NoParams).value.bind.value["injectedActive"] == IntVal(1)
      && Injected(cls, NoParams).bind.value["injectedActive"] == IntVal(0)
    ensures var cls := ModelClass("Users", None, true, None);
      InjectedAsWritten(true, cls, NoParams) == Failure(UndefinedClassConstant("ENABLED"))
      && Injected(cls, NoParams).bind.value["injectedActive"] == IntVal(1)
  {
    var cls := ModelClass("Users", None, true, Some(IntVal(0)));
    assert InsertionSite(cls, NoParams) == IntoConditions;
    var cls' := ModelClass("Users", None, true, None);
    assert InsertionSite(cls', NoParams) == IntoConditions;
  }

  /** The clause itself mentions `active`, one character after the class name. */
  lemma ClauseMentionsActive(cls: ModelClass, prefix: string)
    ensures Text.Contains(prefix + ActiveClause(cls), ActiveNeedle)
  {
    var head := cls.name + ".";
    assert ActiveNeedle[0..|ActiveNeedle|] == ActiveNeedle;
    Text.OccursAfterPrefix(head, ActiveNeedle, ActiveNeedle, 0);
    Text.OccursBeforeSuffix(head + ActiveNeedle, " = :injectedActive:", ActiveNeedle, |head|);
    Text.OccursAfterPrefix(prefix, ActiveClause(cls), ActiveNeedle, |head|);
  }

  /** Without a positional condition the rewrite is idempotent: the clause it adds to
      `conditions` already mentions `active`, so a second rewrite inserts nothing. */
  lemma RewriteIdempotentWithoutFirst(cls: ModelClass, p: Params, v: Scalar, w: Scalar)
    requires p.first.None?
    ensures Rewrite(cls, Rewrite(cls, p, v), w) == Rewrite(cls, p, v)
  {
    var q := Rewrite(cls, p, v);
    if InsertionSite(cls, p) == IntoConditions {
      var prefix := if p.conditions.Some? then p.conditions.value + " AND " else "";
      ClauseMentionsActive(cls, prefix);
      assert q.conditions.value == prefix + ActiveClause(cls);
    }
  }

  /** With a positional condition and no `conditions`, a second rewrite inserts the clause a
      second time, now into `conditions`. */
  lemma RewriteTwiceThroughFirst(cls: ModelClass, p: Params, v: Scalar, w: Scalar)
    requires cls.hasActive && p.first.Some? && !Text.Contains(p.first.value, ActiveNeedle)
    requires p.conditions.None?
    ensures Rewrite(cls, p, v).first == Some(p.first.value + " AND " + ActiveClause(cls))
    ensures Rewrite(cls, Rewrite(cls, p, v), w).conditions == Some(ActiveClause(cls))
  {
    var q := Rewrite(cls, p, v);
    ClauseMentionsActive(cls, p.first.value + " AND ");
    assert InsertionSite(cls, q) == IntoConditions;
  }

  /** The test is a plain substring search: a condition on `inactive` already counts as
      mentioning `active`, so no clause goes into `[0]`. */
  lemma SubstringSuppressesFirst(cls: ModelClass, v: Scalar)
    requires cls.hasActive
    ensures var p := Params(Some("inactive = 0"), Some("id > 1"), None, map[]);
      Rewrite(cls, p, v).first == p.first &&
      Rewrite(cls, p, v).conditions == Some("id > 1 AND " + ActiveClause(cls))
  {
    var p := Params(Some("inactive = 0"), Some("id > 1"), None, map[]);
    assert p.first.value[2..8] == ActiveNeedle;
    assert Text.OccursAt(p.first.value, ActiveNeedle, 2);
    forall j: nat ensures !Text.OccursAt(p.conditions.value, ActiveNeedle, j) {
      if j == 0 {
        assert p.conditions.value[0..6][0] == 'i' != ActiveNeedle[0];
      }
    }
    assert p.conditions.value + " AND " == "id > 1 AND ";
    assert Text.Contains(p.first.value, ActiveNeedle);
    assert !Text.Contains(p.conditions.value, ActiveNeedle);
    assert InsertionSite(cls, p) == IntoConditions;
  }

  /* ---------------------------------------------------------------------------------------- */
  /* Queries                                                                                   */

  /** What the framework's `find` yields for a query: the properties of its result set and the
      records its cursor hands out from `rewind()` to the end. Those are the records after the
      framework's hydration, which already ran the class's own `afterFetch` on each. */
  datatype Fetched = Fetched(props: Props, cursor: seq<Fields>)

  datatype Found =
    | Parent(fetched: Fetched)   // no encrypted fields: the framework's result as it is
    | Collected(result: Simple)     // the re-collected, decrypted result set
    | Raised(error: ModelError)

  /** The properties a set ends with after the rows `rows` were appended one `setRow` at a
      time: none appended leaves `rows` as it was. */
  function Collect(v: Props, rows: seq<Fields>): Props {
    if rows == [] then v else v["rows" := PRows(CurrentRows(v) + rows)]
  }

  /** The rows collected follow the buffered ones, in cursor order; no other property changes. */
  lemma CollectAppends(v: Props, rows: seq<Fields>)
    ensures CurrentRows(Collect(v, rows)) == CurrentRows(v) + rows
    ensures forall k :: k != "rows" ==> (k in Collect(v, rows) <==> k in v)
    ensures forall k :: k != "rows" && k in v ==> Collect(v, rows)[k] == v[k]
  {
  }

  lemma CollectSnoc(v: Props, done: seq<Fields>, row: Fields)
    ensures Collect(v, done + [row])
         == Collect(v, done)["rows" := PRows(CurrentRows(Collect(v, done)) + [row])]
  {
    CollectAppends(v, done);
    assert CurrentRows(v) + done + [row] == CurrentRows(v) + (done + [row]);
  }

  /** The `rewind`/`valid`/`next` walk of `find`: each cursor row is hydrated into a model,
      decrypted, and appended to `collected` by `setRow`. */
  method CollectDecrypted(collected: Simple, cursor: seq<Fields>, cls: ModelClass,
                          sec: Security.Security, d: Security.Digests, c: Cipher)
    returns (err: Option<ModelError>)
    requires RowsAppendable(collected.props)
    modifies collected
    ensures var rows := DecryptedRows(cursor, GetEncryptFields(cls), ModelToken(sec, d), c);
      && (rows.Failure? ==> err == Some(rows.error))
      && (rows.Success? ==> err == None && collected.props == Collect(old(collected.props), rows.value))
  {
    var names := GetEncryptFields(cls);
    ghost var imported := collected.props;
    ghost var token := ModelToken(sec, d);
    var i := 0;
    while i < |cursor|
      invariant 0 <= i <= |cursor|
      invariant DecryptedRows(cursor[..i], names, token, c).Success?
      invariant collected.props == Collect(imported, DecryptedRows(cursor[..i], names, token, c).value)
      invariant RowsAppendable(collected.props)
    {
      var model := new Model(cls, cursor[i]);
      var e := Model.Decrypt(model, sec, d, c);
      assert cursor[..i + 1][..i] == cursor[..i];
      if e.Some? {
        DecryptedRowsFailureSticks(cursor, i + 1, names, token, c);
        return e;
      }
      ghost var done := DecryptedRows(cursor[..i], names, token, c).value;
      assert DecryptedRows(cursor[..i + 1], names, token, c).value == done + [model.fields];
      CollectSnoc(imported, done, model.fields);
      collected.SetRow(model);
      i := i + 1;
    }
    assert cursor[..i] == cursor;
    return None;
  }

  /** `Model::find($parameters)`: the framework query runs with the rewritten parameters, unless
      the rewrite raises; with encrypted fields the rows are decrypted one by one into a new set,
      after the properties of the framework's set were imported. */
  method Find(globalEnabledDefined: bool, cls: ModelClass, parameters: Option<Params>,
              parentFind: Params -> Fetched, initial: Props, sec: Security.Security,
              d: Security.Digests, c: Cipher)
    returns (r: Found)
    requires RowsAppendable(initial) && forall q :: RowsAppendable(parentFind(q).props)
    ensures var query := InjectedAsWritten(globalEnabledDefined, cls, parameters.GetOr(NoParams));
      query.Failure? ==> r == Raised(query.error)
    ensures var query := InjectedAsWritten(globalEnabledDefined, cls, parameters.GetOr(NoParams));
      query.Success? ==>
      var fetched := parentFind(query.value);
      var names := GetEncryptFields(cls);
      var rows := DecryptedRows(fetched.cursor, names, ModelToken(sec, d), c);
      && (names == [] ==> r == Parent(fetched))
      && (names != [] && rows.Failure? ==> r == Raised(rows.error))
      && (names != [] && rows.Success? ==>
            r.Collected? && fresh(r.result) &&
            r.result.props == Collect(initial + fetched.props, rows.value)["pointer" := PInt(0)])
  {
    var query := InjectActiveParameter(globalEnabledDefined, cls, parameters);
    if query.Failure? {
      return Raised(query.error);
    }
    var fetched := parentFind(query.value);
    var names := GetEncryptFields(cls);
    if |names| == 0 {
      return Parent(fetched);
    }
    var source := new Simple(fetched.props);
    var collected := new Simple(initial);
    collected.Import(source);
    assert RowsAppendable(collected.props);
    var err := CollectDecrypted(collected, fetched.cursor, cls, sec, d, c);
    if err.Some? {
      return Raised(err.value);
    }
    collected.Rewind();
    return Collected(collected);
  }

  /** `Model::findFirst($parameters)`: the framework's query with the rewritten parameters, or
      the exception the rewrite raises. */
  method FindFirst<R>(globalEnabledDefined: bool, cls: ModelClass, parameters: Option<Params>,
                      parentFindFirst: Params -> R)
    returns (r: Result<R, ModelError>)
    ensures var query := InjectedAsWritten(globalEnabledDefined, cls, parameters.GetOr(NoParams));
      && (query.Failure? ==> r == Failure(query.error))
      && (query.Success? ==> r == Success(parentFindFirst(query.value)))
  {
    var query := InjectActiveParameter(globalEnabledDefined, cls, parameters);
    if query.Failure? {
      return Failure(query.error);
    }
    return Success(parentFindFirst(query.value));
  }
}

=== FILE: modules_provider.dfy ===
/** Module discovery: Phlexus modules found among the autoloader's namespaces, merged with the
    modules the configuration declares. */
module ModulesProvider {
  import opened Wrappers
  import Text
  import opened PhpArrays

  /** `PHLEXUS_NAMESPACE_PATTERN`: the namespace every vendor module lives under. */
  const NamespacePrefix: string := "Phlexus\\Modules\\"

  /** A module definition: `className`, `path` and `router`, or whatever the configuration gives. */
  type Module = map<string, string>

  /** The exceptions `register` lets escape. */
  datatype ProviderError =
    | NamespaceNotAString(key: int)  // strict_types: preg_match given an integer key
    | MissingList(name: string)      // `$rawModules['vendor']` or `['custom']` absent: null is not an array

  /** `preg_match('#^Phlexus\\Modules\\(\w+)#', $namespace, $matches)` and `$matches[1]`: the
      namespace starts with the prefix followed by at least one word character, and the name is
      the longest run of word characters after the prefix. */
  function MatchModuleName(ns: string): (r: Option<string>)
    ensures r.Some? <==> |ns| > |NamespacePrefix| && ns[..|NamespacePrefix|] == NamespacePrefix
                          && Text.IsWordChar(ns[|NamespacePrefix|])
    ensures r.Some? ==>
      var rest := ns[|NamespacePrefix|..];
      && 0 < |r.value| <= |rest| && r.value == rest[..|r.value|]
      && (forall i :: 0 <= i < |r.value| ==> Text.IsWordChar(r.value[i]))
      && (|r.value| == |rest| || !Text.IsWordChar(rest[|r.value|]))
  {
    if |ns| >= |NamespacePrefix| && ns[..|NamespacePrefix|] == NamespacePrefix then
      var name := Text.WordRun(ns[|NamespacePrefix|..]);
      if name == "" then None else Some(name)
    else None
  }

  /** `$path[0]`: the first directory of the namespace, or null (the empty string) when the
      list is empty. */
  function FirstPath(paths: seq<string>): string {
    if |paths| > 0 then paths[0] else ""
  }

  /** The definition built for module `name` found in directories `paths`. */
  function ModuleEntry(name: string, paths: seq<string>, sep: string): (m: Module)
    ensures m.Keys == {"className", "path", "router"}
    ensures m["className"] == NamespacePrefix + name + "\\Module"
    ensures m["path"] == FirstPath(paths) + sep + "Module.php"
    ensures m["router"] == FirstPath(paths) + sep + "config" + sep + "routes.php"
  {
    map[
      "className" := NamespacePrefix + name + "\\Module",
      "path" := FirstPath(paths) + sep + "Module.php",
      "router" := FirstPath(paths) + sep + "config" + sep + "routes.php"]
  }

  /** One iteration of the `foreach` of `prepareVendorModules`. */
  function VendorStep(acc: Result<PhpArray<Module>, ProviderError>, e: (Key, seq<string>), sep: string)
    : Result<PhpArray<Module>, ProviderError>
  {
    match acc
    case Failure(err) => Failure(err)
    case Success(modules) =>
      match e.0
      case IntKey(i) => Failure(NamespaceNotAString(i))
      case StrKey(ns) =>
        match MatchModuleName(ns)
        case None => Success(modules)
        case Some(name) => Success(Put(modules, NormalizeKey(name), ModuleEntry(name, e.1, sep)))
  }

  /** `prepareVendorModules($vendorModules)`, entry after entry. */
  function VendorModules(vendor: PhpArray<seq<string>>, sep: string): Result<PhpArray<Module>, ProviderError> {
    if vendor == [] then Success([])
    else VendorStep(VendorModules(vendor[..|vendor| - 1], sep), vendor[|vendor| - 1], sep)
  }

  /** Every namespace key is a string (PHP turns a numeric namespace into an integer key). */
  predicate StringKeys<V>(a: PhpArray<V>) {
    forall i :: 0 <= i < |a| ==> a[i].0.StrKey?
  }

  /** The assignments the loop performs, in order: one per matching namespace. */
  function Matched(vendor: PhpArray<seq<string>>, sep: string): seq<(Key, Module)> {
    if vendor == [] then []
    else
      var e := vendor[|vendor| - 1];
      var m := if e.0.StrKey? then MatchModuleName(e.0.s) else None;
      Matched(vendor[..|vendor| - 1], sep)
        + (if m.Some? then [(NormalizeKey(m.value), ModuleEntry(m.value, e.1, sep))] else [])
  }

  lemma {:induction false} VendorFailureSticks(vendor: PhpArray<seq<string>>, j: nat, sep: string)
    requires j <= |vendor| && VendorModules(vendor[..j], sep).Failure?
    ensures VendorModules(vendor, sep) == VendorModules(vendor[..j], sep)
  {
    if j < |vendor| {
      var init := vendor[..|vendor| - 1];
      assert init[..j] == vendor[..j];
      VendorFailureSticks(init, j, sep);
    } else {
      assert vendor[..j] == vendor;
    }
  }

  /** With string keys the loop is the successive assignment of the matched entries: a
      namespace that does not match is skipped, and of two namespaces naming the same module
      the later one wins. */
  lemma {:induction false} VendorModulesAssigns(vendor: PhpArray<seq<string>>, sep: string)
    requires StringKeys(vendor)
    ensures VendorModules(vendor, sep) == Success(FromPairs(Matched(vendor, sep)))
  {
    if vendor != [] {
      var init := vendor[..|vendor| - 1];
      assert StringKeys(init);
      VendorModulesAssigns(init, sep);
      var e := vendor[|vendor| - 1];
      var m := MatchModuleName(e.0.s);
      if m.Some? {
        var xs := Matched(init, sep) + [(NormalizeKey(m.value), ModuleEntry(m.value, e.1, sep))];
        assert xs[..|xs| - 1] == Matched(init, sep);
      } else {
        assert Matched(vendor, sep) == Matched(init, sep);
      }
    }
  }

  /** The first namespace key that is not a string raises. */
  lemma {:induction false} VendorModulesRejectsIntKey(vendor: PhpArray<seq<string>>, sep: string, j: nat)
    requires j < |vendor| && vendor[j].0.IntKey? && StringKeys(vendor[..j])
    ensures VendorModules(vendor, sep) == Failure(NamespaceNotAString(vendor[j].0.i))
  {
    VendorModulesAssigns(vendor[..j], sep);
    assert vendor[..j + 1][..j] == vendor[..j];
    VendorFailureSticks(vendor, j + 1, sep);
  }

  /** What `prepareVendorModules` returns under module key `k`: the definition built from the
      last matching namespace whose module name gives that key. */
  lemma VendorModuleLookup(vendor: PhpArray<seq<string>>, sep: string, k: Key)
    requires StringKeys(vendor)
    ensures VendorModules(vendor, sep).Success?
    ensures Get(VendorModules(vendor, sep).value, k) == LastValue(Matched(vendor, sep), k)
    ensures UniqueKeys(VendorModules(vendor, sep).value)
  {
    VendorModulesAssigns(vendor, sep);
    FromPairsGet(Matched(vendor, sep), k);
  }

  /** `prepareVendorModules`: the loop that builds `$modules`. */
  method PrepareVendorModules(vendor: PhpArray<seq<string>>, sep: string)
    returns (r: Result<PhpArray<Module>, ProviderError>)
    ensures r == VendorModules(vendor, sep)
  {
    var modules: PhpArray<Module> := [];
    var i := 0;
    while i < |vendor|
      invariant 0 <= i <= |vendor|
      invariant VendorModules(vendor[..i], sep) == Success(modules)
    {
      var (key, paths) := vendor[i];
      assert vendor[..i + 1][..i] == vendor[..i];
      if key.IntKey? {
        VendorFailureSticks(vendor, i + 1, sep);
        return Failure(NamespaceNotAString(key.i));
      }
      var matched := MatchModuleName(key.s);
      if matched.Some? {
        var name := matched.value;
        modules := Put(modules, NormalizeKey(name), ModuleEntry(name, paths, sep));
      }
      i := i + 1;
    }
    assert vendor[..i] == vendor;
    return Success(modules);
  }

  /** `prepareCustomModules($customModules)` returns the configured modules as they are. */
  function PrepareCustomModules(custom: PhpArray<Module>): (r: PhpArray<Module>)
    ensures r == custom
  {
    custom
  }

  /** The module lists of `register($rawModules)`: `vendor` and `custom`, each possibly absent. */
  datatype RawModules = RawModules(vendor: Option<PhpArray<seq<string>>>, custom: Option<PhpArray<Module>>)

  /** The `$modules` that `register` hands on: vendor modules first, then the custom ones,
      combined by `array_merge`. */
  method Register(raw: RawModules, sep: string) returns (r: Result<PhpArray<Module>, ProviderError>)
    ensures raw.vendor.None? ==> r == Failure(MissingList("vendor"))
    ensures raw.vendor.Some? && VendorModules(raw.vendor.value, sep).Failure? ==>
      r == Failure(VendorModules(raw.vendor.value, sep).error)
    ensures raw.vendor.Some? && VendorModules(raw.vendor.value, sep).Success? && raw.custom.None? ==>
      r == Failure(MissingList("custom"))
    ensures raw.vendor.Some? && VendorModules(raw.vendor.value, sep).Success? && raw.custom.Some? ==>
      r == Success(Merge(VendorModules(raw.vendor.value, sep).value, raw.custom.value))
  {
    if raw.vendor.None? {
      return Failure(MissingList("vendor"));
    }
    var vendorModules := PrepareVendorModules(raw.vendor.value, sep);
    if vendorModules.Failure? {
      return Failure(vendorModules.error);
    }
    if raw.custom.None? {
      return Failure(MissingList("custom"));
    }
    var customModules := PrepareCustomModules(raw.custom.value);
    return Success(Merge(vendorModules.value, customModules));
  }

  /** In the merged modules a custom module replaces the vendor module of the same name, every
      other named vendor module stays, and modules with integer keys are renumbered: key `j`
      holds the `j`-th of them, vendor ones first. */
  lemma RegisterCustomWins(vendor: PhpArray<seq<string>>, custom: PhpArray<Module>, sep: string,
                           name: string)
    requires StringKeys(vendor) && UniqueKeys(custom)
    ensures VendorModules(vendor, sep).Success?
    ensures var merged := Merge(VendorModules(vendor, sep).value, custom);
      && Get(merged, StrKey(name))
         == (if Get(custom, StrKey(name)).Some? then Get(custom, StrKey(name))
             else LastValue(Matched(vendor, sep), StrKey(name)))
      && IntValues(merged) == IntValues(VendorModules(vendor, sep).value) + IntValues(custom)
      && forall j :: 0 <= j < |IntValues(merged)| ==> Get(merged, IntKey(j)) == Some(IntValues(merged)[j])
  {
    VendorModuleLookup(vendor, sep, StrKey(name));
    MergeSemantics(VendorModules(vendor, sep).value, custom, name);
  }

  /** A module whose name is a decimal numeral is stored under an integer key, which
      `array_merge` renumbers: module `7` ends up under key 0. */
  lemma NumericModuleRenumbered(sep: string)
    ensures var vendor := [(StrKey("Phlexus\\Modules\\7\\"), ["/vendor/m7/src"])];
      && VendorModules(vendor, sep) == Success([(IntKey(7), ModuleEntry("7", ["/vendor/m7/src"], sep))])
      && Merge(VendorModules(vendor, sep).value, [])
         == [(IntKey(0), ModuleEntry("7", ["/vendor/m7/src"], sep))]
  {
    var ns := "Phlexus\\Modules\\7\\";
    assert ns[..|NamespacePrefix|] == NamespacePrefix;
    assert ns[|NamespacePrefix|..] == "7\\";
    assert Text.WordRun("7\\") == "7" by {
      assert Text.WordRun("\\") == "";
      assert "7\\"[1..] == "\\";
    }
    assert MatchModuleName(ns) == Some("7");
    assert NormalizeKey("7") == IntKey(7) by {
      assert CanonicalNumeral("7");
      assert DigitsValue("7") == 7 by {
        assert "7"[..0] == "";
      }
    }
    var vendor := [(StrKey(ns), ["/vendor/m7/src"])];
    assert vendor[..0] == [];
    var e := ModuleEntry("7", ["/vendor/m7/src"], sep);
    var none: PhpArray<Module> := [];
    assert Get(none, IntKey(7)) == None;
    assert Put(none, IntKey(7), e) == [(IntKey(7), e)];
    assert VendorModules(vendor, sep) == VendorStep(Success([]), vendor[0], sep);
    assert Merge([(IntKey(7), e)], []) == MergeAll([(IntKey(7), e)]);
    assert [(IntKey(7), e)][..0] == [];
  }
}

=== FILE: php_arrays.dfy ===
/** PHP's ordered arrays, as far as the core uses them: string keys that look like integers
    become integer keys, `$a[$k] = $v` overwrites in place or appends, and `array_merge`
    renumbers integer keys while later string keys win. */
module PhpArrays {
  import opened Wrappers

  datatype Key = IntKey(i: int) | StrKey(s: string)

  /** Entries in insertion order. */
  type PhpArray<V> = seq<(Key, V)>

  /** Every PHP array has pairwise distinct keys. */
  ghost predicate UniqueKeys<V>(a: PhpArray<V>) {
    forall i, j :: 0 <= i < j < |a| ==> a[i].0 != a[j].0
  }

  // ---------------------------------------------------------------------------------------
  // Key normalisation

  const IntMax: int := 9223372036854775807
  const IntMin: int := -9223372036854775808

  predicate IsDigit(c: char) { '0' <= c <= '9' }

  predicate AllDigits(s: string) { forall i :: 0 <= i < |s| ==> IsDigit(s[i]) }

  function DigitsValue(s: string): nat
    requires AllDigits(s)
  {
    if |s| == 0 then 0 else 10 * DigitsValue(s[..|s| - 1]) + (s[|s| - 1] - '0') as nat
  }

  /** A decimal numeral without sign, leading zero or `+`: "0", "7", "42", but not "07". */
  predicate CanonicalNumeral(s: string) {
    s == "0" || (|s| > 0 && '1' <= s[0] <= '9' && AllDigits(s))
  }

  /** A canonical non-negative numeral within the 64-bit range. */
  predicate NonNegativeIntString(s: string) {
    CanonicalNumeral(s) && DigitsValue(s) <= IntMax
  }

  /** `-` followed by a canonical positive numeral within the 64-bit range ("-0" is not one). */
  predicate NegativeIntString(s: string) {
    |s| >= 2 && s[0] == '-' && s[1] != '0' && CanonicalNumeral(s[1..])
    && 0 - DigitsValue(s[1..]) >= IntMin
  }

  /** The key PHP stores for the string `s`: a canonical decimal integer that fits in 64 bits
      becomes that integer, everything else stays a string key. */
  function NormalizeKey(s: string): (k: Key)
    ensures k.IntKey? <==> NonNegativeIntString(s) || NegativeIntString(s)
    ensures NonNegativeIntString(s) ==> k == IntKey(DigitsValue(s))
    ensures NegativeIntString(s) ==> k == IntKey(0 - DigitsValue(s[1..]))
    ensures k.StrKey? ==> k.s == s
    ensures k.IntKey? ==> IntMin <= k.i <= IntMax
    ensures (|s| == 0 || (!IsDigit(s[0]) && s[0] != '-')) ==> k == StrKey(s)
  {
    if NonNegativeIntString(s) then IntKey(DigitsValue(s))
    else if NegativeIntString(s) then IntKey(0 - DigitsValue(s[1..]))
    else StrKey(s)
  }

  // ---------------------------------------------------------------------------------------
  // Lookup and assignment

  /** Position of the first entry with key `k`. */
  function Find<V>(a: PhpArray<V>, k: Key): (r: Option<nat>)
    ensures r.Some? ==> r.value < |a| && a[r.value].0 == k
    ensures r.Some? ==> forall j :: 0 <= j < r.value ==> a[j].0 != k
    ensures r.None? <==> forall j :: 0 <= j < |a| ==> a[j].0 != k
  {
    if |a| == 0 then None
    else if a[0].0 == k then Some(0)
    else match Find(a[1..], k)
      case Some(j) => Some(j + 1)
      case None => None
  }

  /** `$a[$k] ?? null`. */
  function Get<V>(a: PhpArray<V>, k: Key): Option<V> {
    match Find(a, k)
    case Some(i) => Some(a[i].1)
    case None => None
  }

  /** Two arrays with the same keys at the same positions find every key at the same place. */
  lemma {:induction false} FindSameKeys<V>(a: PhpArray<V>, b: PhpArray<V>, k: Key)
    requires |a| == |b| && forall j :: 0 <= j < |a| ==> a[j].0 == b[j].0
    ensures Find(a, k) == Find(b, k)
  {
    if |a| > 0 {
      FindSameKeys(a[1..], b[1..], k);
    }
  }

  /** Appending one entry only matters for a key the array does not have yet. */
  lemma {:induction false} FindAppend<V>(a: PhpArray<V>, e: (Key, V), k: Key)
    ensures Find(a + [e], k)
         == if Find(a, k).Some? then Find(a, k) else if e.0 == k then Some(|a|) else None
  {
    if |a| > 0 {
      assert (a + [e])[1..] == a[1..] + [e];
      FindAppend(a[1..], e, k);
    }
  }

  /** `$a[$k] = $v`: an existing key keeps its position and takes the new value, a new key is
      appended at the end. */
  function Put<V>(a: PhpArray<V>, k: Key, v: V): (r: PhpArray<V>)
    ensures Get(r, k) == Some(v)
    ensures forall k' :: k' != k ==> Get(r, k') == Get(a, k')
    ensures Get(a, k).Some? ==> |r| == |a| && forall j :: 0 <= j < |a| ==> r[j].0 == a[j].0
    ensures Get(a, k).None? ==> r == a + [(k, v)]
    ensures UniqueKeys(a) ==> UniqueKeys(r)
  {
    match Find(a, k)
    case Some(i) =>
      FindAfterUpdate(a, i, k, v);
      a[i := (k, v)]
    case None =>
      FindAfterAppend(a, k, v);
      a + [(k, v)]
  }

  lemma FindAfterUpdate<V>(a: PhpArray<V>, i: nat, k: Key, v: V)
    requires i < |a| && a[i].0 == k
    ensures forall k' :: Find(a[i := (k, v)], k') == Find(a, k')
  {
    forall k' ensures Find(a[i := (k, v)], k') == Find(a, k') { FindSameKeys(a[i := (k, v)], a, k'); }
  }

  lemma FindAfterAppend<V>(a: PhpArray<V>, k: Key, v: V)
    requires Find(a, k).None?
    ensures Find(a + [(k, v)], k) == Some(|a|)
    ensures forall k' :: k' != k ==> Find(a + [(k, v)], k') == Find(a, k')
  {
    forall k' ensures Find(a + [(k, v)], k') == if k' == k then Some(|a|) else Find(a, k') {
      FindAppend(a, (k, v), k');
    }
  }

  /** The array built by assigning the pairs of `xs` one after another, starting from `[]`. */
  function FromPairs<V>(xs: seq<(Key, V)>): PhpArray<V> {
    if |xs| == 0 then [] else Put(FromPairs(xs[..|xs| - 1]), xs[|xs| - 1].0, xs[|xs| - 1].1)
  }

  /** The value of the last pair of `xs` with key `k`. */
  function LastValue<V>(xs: seq<(Key, V)>, k: Key): Option<V> {
    if |xs| == 0 then None
    else if xs[|xs| - 1].0 == k then Some(xs[|xs| - 1].1)
    else LastValue(xs[..|xs| - 1], k)
  }

  /** After a series of assignments every key holds the value assigned last, and the keys stay
      distinct. */
  lemma {:induction false} FromPairsGet<V>(xs: seq<(Key, V)>, k: Key)
    ensures Get(FromPairs(xs), k) == LastValue(xs, k)
    ensures UniqueKeys(FromPairs(xs))
  {
    if |xs| > 0 {
      FromPairsGet(xs[..|xs| - 1], k);
    }
  }

  /** In an array with distinct keys the last and the first entry of a key are the same. */
  lemma {:induction false} LastValueIsGet<V>(a: PhpArray<V>, k: Key)
    requires UniqueKeys(a)
    ensures LastValue(a, k) == Get(a, k)
  {
    if |a| > 0 {
      var p := a[..|a| - 1];
      LastValueIsGet(p, k);
      if a[|a| - 1].0 != k {
        match Find(p, k)
        case Some(j) => assert Find(a, k) == Some(j);
        case None => assert Find(a, k) == None;
      } else {
        assert Find(a, k) == Some(|a| - 1);
      }
    }
  }

  /** The last assignment of a key in `a + b` is in `b` when `b` has one. */
  lemma {:induction false} LastValueConcat<V>(a: seq<(Key, V)>, b: seq<(Key, V)>, k: Key)
    ensures LastValue(a + b, k)
         == if LastValue(b, k).Some? then LastValue(b, k) else LastValue(a, k)
  {
    if |b| == 0 {
      assert a + b == a;
    } else {
      assert (a + b)[..|a + b| - 1] == a + b[..|b| - 1];
      LastValueConcat(a, b[..|b| - 1], k);
    }
  }

  // ---------------------------------------------------------------------------------------
  // array_merge

  /** The values stored under integer keys, in order. */
  function IntValues<V>(a: seq<(Key, V)>): seq<V> {
    if |a| == 0 then []
    else IntValues(a[..|a| - 1]) + (if a[|a| - 1].0.IntKey? then [a[|a| - 1].1] else [])
  }

  /** Every integer key is below the number of integer-keyed entries. */
  ghost predicate IntKeysBelowCount<V>(a: PhpArray<V>) {
    forall j :: 0 <= j < |a| && a[j].0.IntKey? ==> 0 <= a[j].0.i < |IntValues(a)|
  }

  /** One element of `array_merge`: integer-keyed values are appended under the next index,
      string-keyed values are assigned. */
  function MergeStep<V>(acc: PhpArray<V>, e: (Key, V)): PhpArray<V> {
    if e.0.IntKey? then acc + [(IntKey(|IntValues(acc)|), e.1)] else Put(acc, e.0, e.1)
  }

  function MergeAll<V>(xs: seq<(Key, V)>): PhpArray<V> {
    if |xs| == 0 then [] else MergeStep(MergeAll(xs[..|xs| - 1]), xs[|xs| - 1])
  }

  /** `array_merge(a, b)`. */
  function Merge<V>(a: PhpArray<V>, b: PhpArray<V>): PhpArray<V> {
    MergeAll(a + b)
  }

  lemma {:induction false} IntValuesConcat<V>(a: seq<(Key, V)>, b: seq<(Key, V)>)
    ensures IntValues(a + b) == IntValues(a) + IntValues(b)
  {
    if |b| == 0 {
      assert a + b == a;
    } else {
      assert (a + b)[..|a + b| - 1] == a + b[..|b| - 1];
      IntValuesConcat(a, b[..|b| - 1]);
    }
  }

  /** Replacing a string-keyed entry by another string-keyed one leaves the integer-keyed
      values alone. */
  lemma {:induction false} IntValuesUpdate<V>(a: seq<(Key, V)>, i: nat, e: (Key, V))
    requires i < |a| && a[i].0.StrKey? && e.0.StrKey?
    ensures IntValues(a[i := e]) == IntValues(a)
  {
    var n := |a|;
    if i == n - 1 {
      assert a[i := e][..n - 1] == a[..n - 1];
    } else {
      assert a[i := e][..n - 1] == a[..n - 1][i := e];
      IntValuesUpdate(a[..n - 1], i, e);
    }
  }

  lemma PutStrKeepsIntValues<V>(acc: PhpArray<V>, s: string, v: V)
    ensures IntValues(Put(acc, StrKey(s), v)) == IntValues(acc)
    ensures forall j :: 0 <= j < |acc| ==> Put(acc, StrKey(s), v)[j].0 == acc[j].0
  {
    match Find(acc, StrKey(s))
    case Some(i) => IntValuesUpdate(acc, i, (StrKey(s), v));
    case None =>
  }

  /** One merge step keeps the keys distinct and the integer keys below their count, and
      appends an integer-keyed value to the integer-keyed values. */
  lemma MergeStepShape<V>(acc: PhpArray<V>, e: (Key, V))
    requires UniqueKeys(acc) && IntKeysBelowCount(acc)
    ensures UniqueKeys(MergeStep(acc, e)) && IntKeysBelowCount(MergeStep(acc, e))
    ensures IntValues(MergeStep(acc, e)) == IntValues(acc + [e])
  {
    var r := MergeStep(acc, e);
    assert (acc + [e])[..|acc|] == acc;
    if e.0.IntKey? {
      assert r[..|acc|] == acc;
    } else {
      PutStrKeepsIntValues(acc, e.0.s, e.1);
    }
  }

  /** Integer key `j` holds the `j`-th integer-keyed value: the keys are `0, 1, ...` in order. */
  ghost predicate IntKeysDense<V>(a: PhpArray<V>) {
    forall j :: 0 <= j < |IntValues(a)| ==> Get(a, IntKey(j)) == Some(IntValues(a)[j])
  }

  /** One merge step keeps every integer key on its own value, and a new integer-keyed value
      goes under the next index. */
  lemma MergeStepDense<V>(acc: PhpArray<V>, e: (Key, V))
    requires IntKeysBelowCount(acc) && IntKeysDense(acc)
    ensures IntKeysDense(MergeStep(acc, e))
  {
    var r := MergeStep(acc, e);
    var n := |IntValues(acc)|;
    if e.0.IntKey? {
      var last := (IntKey(n), e.1);
      assert r == acc + [last];
      assert IntValues(r) == IntValues(acc) + [e.1] by { assert r[..|acc|] == acc; }
      forall i | 0 <= i < |acc| ensures acc[i].0 != IntKey(n) { }
      forall j | 0 <= j < |IntValues(r)| ensures Get(r, IntKey(j)) == Some(IntValues(r)[j]) {
        FindAppend(acc, last, IntKey(j));
      }
    } else {
      PutStrKeepsIntValues(acc, e.0.s, e.1);
    }
  }

  /** After merging, integer key `j` holds the `j`-th integer-keyed value of the input. */
  lemma {:induction false} MergeAllDense<V>(xs: seq<(Key, V)>)
    ensures IntKeysDense(MergeAll(xs))
  {
    if |xs| > 0 {
      var p := xs[..|xs| - 1];
      MergeAllDense(p);
      MergeAllShape(p);
      MergeStepDense(MergeAll(p), xs[|xs| - 1]);
    }
  }

  /** One merge step assigns a string key and leaves the other string keys alone. */
  lemma MergeStepLookup<V>(acc: PhpArray<V>, e: (Key, V), s: string)
    ensures Get(MergeStep(acc, e), StrKey(s))
         == if e.0 == StrKey(s) then Some(e.1) else Get(acc, StrKey(s))
  {
    if e.0.IntKey? {
      FindAppend(acc, (IntKey(|IntValues(acc)|), e.1), StrKey(s));
    }
  }

  /** Merging lists the integer-keyed values in order. */
  lemma {:induction false} MergeAllIntValues<V>(xs: seq<(Key, V)>)
    ensures IntValues(MergeAll(xs)) == IntValues(xs)
  {
    if |xs| > 0 {
      var p, e := xs[..|xs| - 1], xs[|xs| - 1];
      var acc := MergeAll(p);
      MergeAllIntValues(p);
      MergeAllShape(p);
      MergeStepShape(acc, e);
      calc {
        IntValues(MergeAll(xs));
        IntValues(acc + [e]);
        { IntValuesConcat(acc, [e]); }
        IntValues(p) + IntValues([e]);
        { IntValuesConcat(p, [e]); assert xs == p + [e]; }
        IntValues(xs);
      }
    }
  }

  /** Merging keeps the keys distinct and the integer keys below their count. */
  lemma {:induction false} MergeAllShape<V>(xs: seq<(Key, V)>)
    ensures UniqueKeys(MergeAll(xs)) && IntKeysBelowCount(MergeAll(xs))
  {
    if |xs| > 0 {
      var p, e := xs[..|xs| - 1], xs[|xs| - 1];
      MergeAllShape(p);
      MergeStepShape(MergeAll(p), e);
    }
  }

  /** Merging gives each string key the value of its last entry. */
  lemma {:induction false} MergeAllLookup<V>(xs: seq<(Key, V)>, s: string)
    ensures Get(MergeAll(xs), StrKey(s)) == LastValue(xs, StrKey(s))
  {
    if |xs| > 0 {
      var p, e := xs[..|xs| - 1], xs[|xs| - 1];
      MergeAllLookup(p, s);
      MergeStepLookup(MergeAll(p), e, s);
    }
  }

  /** `array_merge(a, b)`: a string key of `b` replaces the entry of `a` with that key, other
      string keys of `a` keep their values, and the integer-keyed values of `a` and then of `b`
      are renumbered `0, 1, ...` (distinct keys below their count). */
  lemma MergeSemantics<V>(a: PhpArray<V>, b: PhpArray<V>, s: string)
    requires UniqueKeys(a) && UniqueKeys(b)
    ensures Get(Merge(a, b), StrKey(s))
         == if Get(b, StrKey(s)).Some? then Get(b, StrKey(s)) else Get(a, StrKey(s))
    ensures IntValues(Merge(a, b)) == IntValues(a) + IntValues(b)
    ensures forall j :: 0 <= j < |IntValues(a) + IntValues(b)| ==>
      Get(Merge(a, b), IntKey(j)) == Some((IntValues(a) + IntValues(b))[j])
    ensures UniqueKeys(Merge(a, b)) && IntKeysBelowCount(Merge(a, b))
  {
    MergeAllDense(a + b);
    IntValuesConcat(a, b);
    MergeAllShape(a + b);
    MergeAllIntValues(a + b);
    MergeAllLookup(a + b, s);
    LastValueConcat(a, b, StrKey(s));
    LastValueIsGet(a, StrKey(s));
    LastValueIsGet(b, StrKey(s));
    IntValuesConcat(a, b);
  }
}

=== FILE: security.dfy ===
/** Token derivation: every token is computed from the concatenation
    `appHash ++ userHash ++ append`, optionally followed by a date or an hour reading. */
module Security {
  import opened Wrappers
  import Clock
  import Text

  /** The foreign primitives. `md5` is the RFC 1321 digest rendered as hex; `hash` is the
      framework's password hash, whose second argument is the random salt it draws; `checkHash`
      is its verifier. */
  datatype Digests = Digests(
    md5: string -> string,
    hash: (string, string) -> string,
    checkHash: (string, string) -> bool)

  /** What the model assumes of the verifier: it accepts the hash of the very input. */
  ghost predicate ChecksOwnHash(d: Digests) {
    forall x, salt :: d.checkHash(x, d.hash(x, salt))
  }

  /** The framework's default hash is bcrypt, which reads at most the first 72 bytes of its
      input; a character of the model stands for a byte. */
  const BcryptLimit: nat := 72

  /** What bcrypt reads of `s`: a prefix of at most 72 bytes, which is all of `s` unless the
      limit cuts it. */
  function Bcrypted(s: string): (r: string)
    ensures |r| <= BcryptLimit && |r| <= |s| && r == s[..|r|]
    ensures |r| == BcryptLimit || r == s
  {
    if |s| <= BcryptLimit then s else s[..BcryptLimit]
  }

  /** A verifier that is collision-free on what bcrypt reads: a hash is accepted only for an
      input that agrees with its own on the first 72 bytes. */
  ghost predicate SeparatesBcrypted(d: Digests) {
    forall x, y, salt :: d.checkHash(y, d.hash(x, salt)) ==> Bcrypted(x) == Bcrypted(y)
  }

  /** What bcrypt does with longer inputs: everything after the first 72 bytes is ignored. */
  ghost predicate IgnoresPastBcrypted(d: Digests) {
    forall x, y, salt :: Bcrypted(x) == Bcrypted(y) ==> d.checkHash(y, d.hash(x, salt))
  }

  /** Reading a typed property before it was assigned raises an `Error`. */
  datatype SecurityError = Uninitialized(property: string)

  class Security {
    var appHash: Option<string>
    var userHash: Option<string>
    var databaseHash: Option<string>

    /** The three hashes are typed properties without a default: none is initialised. */
    constructor ()
      ensures appHash == None && userHash == None && databaseHash == None
    {
      appHash, userHash, databaseHash := None, None, None;
    }

    /** `getAppHash()`: reading the unset typed property raises. */
    function GetAppHash(): (r: Result<string, SecurityError>)
      reads this
      ensures r.Success? <==> appHash.Some?
      ensures r.Success? ==> r.value == appHash.value
      ensures r.Failure? ==> r.error == Uninitialized("appHash")
    {
      if appHash.Some? then Success(appHash.value) else Failure(Uninitialized("appHash"))
    }

    /** `getUserHash()`: reading the unset typed property raises. */
    function GetUserHash(): (r: Result<string, SecurityError>)
      reads this
      ensures r.Success? <==> userHash.Some?
      ensures r.Success? ==> r.value == userHash.value
      ensures r.Failure? ==> r.error == Uninitialized("userHash")
    {
      if userHash.Some? then Success(userHash.value) else Failure(Uninitialized("userHash"))
    }

    /** `getDatabaseHash()`: reading the unset typed property raises. */
    function GetDatabaseHash(): (r: Result<string, SecurityError>)
      reads this
      ensures r.Success? <==> databaseHash.Some?
      ensures r.Success? ==> r.value == databaseHash.value
      ensures r.Failure? ==> r.error == Uninitialized("databaseHash")
    {
      if databaseHash.Some? then Success(databaseHash.value)
      else Failure(Uninitialized("databaseHash"))
    }

    method SetAppHash(h: string)
      modifies this
      ensures GetAppHash() == Success(h)
      ensures userHash == old(userHash) && databaseHash == old(databaseHash)
    {
      appHash := Some(h);
    }

    method SetUserHash(h: string)
      modifies this
      ensures GetUserHash() == Success(h)
      ensures appHash == old(appHash) && databaseHash == old(databaseHash)
    {
      userHash := Some(h);
    }

    method SetDatabaseHash(h: string)
      modifies this
      ensures GetDatabaseHash() == Success(h)
      ensures appHash == old(appHash) && userHash == old(userHash)
    {
      databaseHash := Some(h);
    }

    /** `getAppHash() . getUserHash() . append`; the application hash is read first. */
    function TokenInput(append: string): (r: Result<string, SecurityError>)
      reads this
      ensures r.Success? <==> appHash.Some? && userHash.Some?
      ensures r.Success? ==> r.value == appHash.value + userHash.value + append
      ensures appHash.None? ==> r == Failure(Uninitialized("appHash"))
      ensures appHash.Some? && userHash.None? ==> r == Failure(Uninitialized("userHash"))
    {
      match GetAppHash()
      case Failure(e) => Failure(e)
      case Success(app) =>
        match GetUserHash()
        case Failure(e) => Failure(e)
        case Success(user) => Success(app + user + append)
    }

    /** `getStaticUserToken(append)`: the MD5 of exactly `appHash ++ userHash ++ append`. */
    function StaticUserToken(d: Digests, append: string): (r: Result<string, SecurityError>)
      reads this
      ensures r.Success? <==> appHash.Some? && userHash.Some?
      ensures r.Success? ==> r.value == d.md5(appHash.value + userHash.value + append)
    {
      match TokenInput(append)
      case Failure(e) => Failure(e)
      case Success(input) => Success(d.md5(input))
    }

    /** `getStaticDatabaseToken(append)`: the argument is never read; the database hash is
        passed on as the `append` of the static user token, and is read first. */
    function StaticDatabaseToken(d: Digests, append: string): (r: Result<string, SecurityError>)
      reads this
      ensures databaseHash.None? ==> r == Failure(Uninitialized("databaseHash"))
      ensures databaseHash.Some? ==> r == StaticUserToken(d, databaseHash.value)
    {
      match GetDatabaseHash()
      case Failure(e) => Failure(e)
      case Success(db) => StaticUserToken(d, db)
    }

    /** `getUserToken(append)`: the framework hash of the token input, salted with `salt`. */
    function UserToken(d: Digests, salt: string, append: string): (r: Result<string, SecurityError>)
      reads this
      ensures r.Success? <==> appHash.Some? && userHash.Some?
      ensures r.Success? ==> r.value == d.hash(appHash.value + userHash.value + append, salt)
    {
      match TokenInput(append)
      case Failure(e) => Failure(e)
      case Success(input) => Success(d.hash(input, salt))
    }

    /** `checkUserToken(token, append)`: verifies `token` against the same token input. */
    function CheckUserToken(d: Digests, token: string, append: string): (r: Result<bool, SecurityError>)
      reads this
      ensures r.Success? <==> appHash.Some? && userHash.Some?
      ensures r.Success? ==> r.value == d.checkHash(appHash.value + userHash.value + append, token)
    {
      match TokenInput(append)
      case Failure(e) => Failure(e)
      case Success(input) => Success(d.checkHash(input, token))
    }

    /** `getUserTokenByDate(append)`: the date reading of `now` follows `append`. */
    function UserTokenByDate(d: Digests, salt: string, append: string, now: Clock.Moment)
      : (r: Result<string, SecurityError>)
      reads this
      ensures r == UserToken(d, salt, append + Clock.DateStamp(now))
    {
      match TokenInput(append + Clock.DateStamp(now))
      case Failure(e) => Failure(e)
      case Success(input) => Success(d.hash(input, salt))
    }

    /** `checkUserTokenByDate(token, append)`, with the date read at check time. */
    function CheckUserTokenByDate(d: Digests, token: string, append: string, now: Clock.Moment)
      : (r: Result<bool, SecurityError>)
      reads this
      ensures r == CheckUserToken(d, token, append + Clock.DateStamp(now))
    {
      match TokenInput(append + Clock.DateStamp(now))
      case Failure(e) => Failure(e)
      case Success(input) => Success(d.checkHash(input, token))
    }

    /** `getUserTokenByHour(append)`: the `Y-m-d H` reading of `now` follows `append`. */
    function UserTokenByHour(d: Digests, salt: string, append: string, now: Clock.Moment)
      : (r: Result<string, SecurityError>)
      reads this
      ensures r == UserToken(d, salt, append + Clock.HourStamp(now))
    {
      match TokenInput(append + Clock.HourStamp(now))
      case Failure(e) => Failure(e)
      case Success(input) => Success(d.hash(input, salt))
    }

    /** `checkUserTokenByHour(token, append)`, with the hour read at check time. */
    function CheckUserTokenByHour(d: Digests, token: string, append: string, now: Clock.Moment)
      : (r: Result<bool, SecurityError>)
      reads this
      ensures r == CheckUserToken(d, token, append + Clock.HourStamp(now))
    {
      match TokenInput(append + Clock.HourStamp(now))
      case Failure(e) => Failure(e)
      case Success(input) => Success(d.checkHash(input, token))
    }
  }

  /** The static database token is the static user token of the database hash, whatever is
      passed to it. */
  lemma DatabaseTokenIgnoresArgument(s: Security, d: Digests, a1: string, a2: string)
    ensures s.StaticDatabaseToken(d, a1) == s.StaticDatabaseToken(d, a2)
    ensures s.StaticDatabaseToken(d, a1).Success?
        <==> s.databaseHash.Some? && s.appHash.Some? && s.userHash.Some?
  {
  }

  /** A token from `getUserToken(append)` passes `checkUserToken(token, append)`. */
  lemma UserTokenChecks(s: Security, d: Digests, salt: string, append: string)
    requires ChecksOwnHash(d)
    requires s.appHash.Some? && s.userHash.Some?
    ensures s.CheckUserToken(d, s.UserToken(d, salt, append).value, append) == Success(true)
  {
  }

  /** Without any assumption on the primitives: the token inputs of two moments are equal
      exactly when their `Y-m-d` readings are, that is on the same day (years 0 to 9999). */
  lemma DateInputsSeparateDays(s: Security, append: string, t1: Clock.Moment, t2: Clock.Moment)
    requires s.appHash.Some? && s.userHash.Some?
    requires t1.year < 10000 && t2.year < 10000
    ensures s.TokenInput(append + Clock.DateStamp(t1)) == s.TokenInput(append + Clock.DateStamp(t2))
        <==> (t1.year, t1.month, t1.day) == (t2.year, t2.month, t2.day)
  {
    var prefix := s.appHash.value + s.userHash.value + append;
    Clock.DateStampInjective(t1, t2);
    Text.PrefixCancel(prefix, Clock.DateStamp(t1), Clock.DateStamp(t2));
    assert prefix + Clock.DateStamp(t1)
        == s.appHash.value + s.userHash.value + (append + Clock.DateStamp(t1));
    assert prefix + Clock.DateStamp(t2)
        == s.appHash.value + s.userHash.value + (append + Clock.DateStamp(t2));
  }

  /** Without any assumption on the primitives: the token inputs of two moments are equal
      exactly when their `Y-m-d H` readings are, that is in the same hour (years 0 to 9999). */
  lemma HourInputsSeparateHours(s: Security, append: string, t1: Clock.Moment, t2: Clock.Moment)
    requires s.appHash.Some? && s.userHash.Some?
    requires t1.year < 10000 && t2.year < 10000
    ensures s.TokenInput(append + Clock.HourStamp(t1)) == s.TokenInput(append + Clock.HourStamp(t2))
        <==> t1 == t2
  {
    var prefix := s.appHash.value + s.userHash.value + append;
    Clock.HourStampInjective(t1, t2);
    Text.PrefixCancel(prefix, Clock.HourStamp(t1), Clock.HourStamp(t2));
    assert prefix + Clock.HourStamp(t1)
        == s.appHash.value + s.userHash.value + (append + Clock.HourStamp(t1));
    assert prefix + Clock.HourStamp(t2)
        == s.appHash.value + s.userHash.value + (append + Clock.HourStamp(t2));
  }

  /** A token minted by date is accepted on the day it was minted. When the hashes and `append`
      leave the date inside the 72 bytes bcrypt reads, a verifier that separates what bcrypt
      reads refuses it on every other day (years 0 to 9999). */
  lemma DateTokenScopedToDay(s: Security, d: Digests, salt: string, append: string,
                             minted: Clock.Moment, checked: Clock.Moment)
    requires ChecksOwnHash(d)
    requires s.appHash.Some? && s.userHash.Some?
    requires minted.year < 10000 && checked.year < 10000
    ensures var token := s.UserTokenByDate(d, salt, append, minted).value;
      var sameDay := (minted.year, minted.month, minted.day)
                  == (checked.year, checked.month, checked.day);
      && (sameDay ==> s.CheckUserTokenByDate(d, token, append, checked) == Success(true))
      && (SeparatesBcrypted(d) && !sameDay
          && |s.appHash.value + s.userHash.value + append| + 10 <= BcryptLimit ==>
            s.CheckUserTokenByDate(d, token, append, checked) == Success(false))
  {
    var x := s.appHash.value + s.userHash.value + (append + Clock.DateStamp(minted));
    var y := s.appHash.value + s.userHash.value + (append + Clock.DateStamp(checked));
    var sameDay := (minted.year, minted.month, minted.day)
                == (checked.year, checked.month, checked.day);
    if SeparatesBcrypted(d) && !sameDay
       && |s.appHash.value + s.userHash.value + append| + 10 <= BcryptLimit {
      DateInputsSeparateDays(s, append, minted, checked);
      assert x != y;
      assert |Clock.DateStamp(minted)| == 10 && |Clock.DateStamp(checked)| == 10;
      assert Bcrypted(x) == x && Bcrypted(y) == y;
    }
  }

  /** A token minted by hour is accepted in the hour it was minted. When the hour stays inside
      the 72 bytes bcrypt reads, a verifier that separates what bcrypt reads refuses it in
      every other hour (years 0 to 9999). */
  lemma HourTokenScopedToHour(s: Security, d: Digests, salt: string, append: string,
                              minted: Clock.Moment, checked: Clock.Moment)
    requires ChecksOwnHash(d)
    requires s.appHash.Some? && s.userHash.Some?
    requires minted.year < 10000 && checked.year < 10000
    ensures var token := s.UserTokenByHour(d, salt, append, minted).value;
      && (minted == checked ==> s.CheckUserTokenByHour(d, token, append, checked) == Success(true))
      && (SeparatesBcrypted(d) && minted != checked
          && |s.appHash.value + s.userHash.value + append| + 13 <= BcryptLimit ==>
            s.CheckUserTokenByHour(d, token, append, checked) == Success(false))
  {
    var x := s.appHash.value + s.userHash.value + (append + Clock.HourStamp(minted));
    var y := s.appHash.value + s.userHash.value + (append + Clock.HourStamp(checked));
    if SeparatesBcrypted(d) && minted != checked
       && |s.appHash.value + s.userHash.value + append| + 13 <= BcryptLimit {
      HourInputsSeparateHours(s, append, minted, checked);
      assert x != y;
      assert |Clock.HourStamp(minted)| == 13 && |Clock.HourStamp(checked)| == 13;
      assert Bcrypted(x) == x && Bcrypted(y) == y;
    }
  }

  /** The limit of the scheme: once the hashes and `append` fill the 72 bytes bcrypt reads, the
      date falls outside them and a date token is accepted on every day. */
  lemma LongInputOutlivesDay(s: Security, d: Digests, salt: string, append: string,
                             minted: Clock.Moment, checked: Clock.Moment)
    requires IgnoresPastBcrypted(d)
    requires s.appHash.Some? && s.userHash.Some?
    requires |s.appHash.value + s.userHash.value + append| >= BcryptLimit
    ensures s.CheckUserTokenByDate(d, s.UserTokenByDate(d, salt, append, minted).value, append,
                                   checked) == Success(true)
  {
    var prefix := s.appHash.value + s.userHash.value + append;
    var x := s.appHash.value + s.userHash.value + (append + Clock.DateStamp(minted));
    var y := s.appHash.value + s.userHash.value + (append + Clock.DateStamp(checked));
    assert x == prefix + Clock.DateStamp(minted) && y == prefix + Clock.DateStamp(checked);
    assert x[..BcryptLimit] == prefix[..BcryptLimit] == y[..BcryptLimit];
    assert Bcrypted(x) == Bcrypted(y);
    assert d.checkHash(y, d.hash(x, salt));
  }
}

=== FILE: text.dfy ===
/** The two string primitives the core relies on: `strpos` and the PCRE class `\w`. */
module Text {
  import opened Wrappers

  /** PCRE `\w` without the UTF flag: an ASCII letter, digit or underscore. */
  predicate IsWordChar(c: char) {
    ('A' <= c <= 'Z') || ('a' <= c <= 'z') || ('0' <= c <= '9') || c == '_'
  }

  /** The needle `n` occurs in `h` starting at position `i`. */
  predicate OccursAt(h: string, n: string, i: nat) {
    i + |n| <= |h| && h[i..i + |n|] == n
  }

  /** What `preg_match` captures with a greedy `(\w+)`: the longest run of word characters
      at the start of `s` (empty when `s` does not start with one). */
  function WordRun(s: string): (r: string)
    ensures |r| <= |s| && r == s[..|r|]
    ensures forall i :: 0 <= i < |r| ==> IsWordChar(r[i])
    ensures |r| == |s| || !IsWordChar(s[|r|])
  {
    if |s| == 0 || !IsWordChar(s[0]) then "" else [s[0]] + WordRun(s[1..])
  }

  /** `strpos(h, n, i)` restricted to offsets `i <= |h|`: the first occurrence at or after `i`. */
  function StrPosFrom(h: string, n: string, i: nat): (r: Option<nat>)
    requires i <= |h|
    ensures r.Some? ==> i <= r.value && OccursAt(h, n, r.value)
    ensures r.Some? ==> forall j :: i <= j < r.value ==> !OccursAt(h, n, j)
    ensures r.None? ==> forall j :: i <= j ==> !OccursAt(h, n, j)
    decreases |h| - i
  {
    if OccursAt(h, n, i) then Some(i)
    else if i == |h| then None
    else StrPosFrom(h, n, i + 1)
  }

  /** `strpos(h, n)`: `None` is PHP's `false`. */
  function StrPos(h: string, n: string): (r: Option<nat>)
    ensures r.Some? ==> OccursAt(h, n, r.value) && forall j: nat :: j < r.value ==> !OccursAt(h, n, j)
    ensures r.None? <==> forall j: nat :: !OccursAt(h, n, j)
  {
    StrPosFrom(h, n, 0)
  }

  /** `strpos(h, n) === false` negated: `n` is a substring of `h`. */
  predicate Contains(h: string, n: string) {
    StrPos(h, n).Some?
  }

  /** Two strings that share a prefix are equal exactly when their tails are. */
  lemma {:induction false} PrefixCancel(p: string, x: string, y: string)
    ensures p + x == p + y <==> x == y
  {
    if p + x == p + y {
      assert x == (p + x)[|p|..];
      assert y == (p + y)[|p|..];
    }
  }

  /** An occurrence survives putting text in front: it moves right by that text's length. */
  lemma OccursAfterPrefix(p: string, h: string, n: string, i: nat)
    requires OccursAt(h, n, i)
    ensures OccursAt(p + h, n, |p| + i)
  {
    assert (p + h)[|p| + i..|p| + i + |n|] == h[i..i + |n|];
  }

  /** An occurrence survives appending text. */
  lemma OccursBeforeSuffix(h: string, q: string, n: string, i: nat)
    requires OccursAt(h, n, i)
    ensures OccursAt(h + q, n, i)
  {
    assert (h + q)[i..i + |n|] == h[i..i + |n|];
  }
}

=== FILE: wrappers.dfy ===
/** Failure-carrying values shared by every module of the model. */
module Wrappers {

  /** PHP's `null` / "not set" next to a present value. */
  datatype Option<+T> = None | Some(value: T) {
    function GetOr(default: T): T {
      match this
      case Some(v) => v
      case None => default
    }
  }

  /** A value, or the error (exception) that stopped the computation. */
  datatype Result<+T, +E> = Success(value: T) | Failure(error: E)
}
